=== FILE: README.md ===
# Telegram-Cloud core, modelled in Dafny

Telegram-Cloud stores local files in a Telegram chat. Upload splits a file into
parts of at most `MAX_SIZE` (5 MiB) bytes and sends each part as one message. It
then appends a record (`id`, `chat_target`, `file_path`, and the ordered
`parts` with their message ids) to the manifest `file_uploaded.json`. Download
looks a record up by id, fetches its parts back to their recorded local paths in
order, and joins them into one file.

This project models that core as pure functions over immutable values and proves
properties about them:

- `Common` holds bytes, paths, the error kinds, `Result`/`Option`, and the
  concatenation `Flatten`.
- `Decimal` renders a part number in decimal (Python `str(k)`).
- `FileSystem` models the local filesystem as a map from path to bytes, plus the
  set of directories created. It also models `os.path.basename` as it behaves on POSIX.
- `PartCodec` models `FileSplitter`:
  - `split` as a function (`Split`) and as a loop (`SplitFile`/`WriteParts`).
  - `join` as the program writes it (`JoinAsWritten`).
  - `join` as evidently intended (`Join`).
- `Manifest` models the manifest document, appending a record, and lookup by
  id.
- `Transport` models the chat as an append-only message log. Message `k` is the
  `k`-th one sent, and it can only be fetched from its own chat.
- `Orchestrator` models `App.upload` and `App.download`:
  - Download comes as written (`Download`) and with the intended join
    (`DownloadCorrected`).
  - An effect trace (`Sent`, `Fetched`, `ManifestWritten`) records the order of
    observable steps.

Module `PartCodec` models the class `FileSplitter` and module `Orchestrator`
models the class `App`. The defaults of `upload` (`chat_target="me"`,
`file_path='README.md'`, app.py:98) are not modelled: both are ordinary
parameters of `Orchestrator.Upload`.

The size limit is a parameter `m > 0`, and `PartCodec.MaxSize` is the program's
value. The upload id, which the program draws with `uuid4`, is also a parameter.

Behaviour of app.py that the model keeps, and that a reader might not expect:

- Download of an id that no record carries does nothing and raises nothing
  (app.py:131-139): the lookup loop finds no match and the method returns.
- Upload leaves its part files in `temp` (app.py:101-123): nothing removes
  them after sending.
- Download builds `FileSplitter(file['file_path'])` before joining (app.py:137),
  and that calls `os.path.getsize` on the recorded original path. For a file
  larger than `MAX_SIZE`, download therefore fails with a missing-file error
  when that path no longer exists locally, even if a new destination was given
  (`Orchestrator.DownloadNeedsOriginal`). For a file of at most `MAX_SIZE`
  bytes the one part is the original path itself, which the fetch loop has
  just written back, so download succeeds (`Orchestrator.RetrieveAfterUpload`).
- A file of at most `MAX_SIZE` bytes downloaded to a new path is moved, not
  copied (app.py:134-138): its one part is the original path, and `join`
  removes its parts, so the local original is gone afterwards. The intended
  join does the same (`Orchestrator.SmallFileNewPathRemovesOriginal`).
- The destination is `new_file_path or file['file_path']` (app.py:138), so an
  empty new path falls back to the recorded one (`Orchestrator.Destination`).
- `os.makedirs('temp', exist_ok=True)` fails when `temp` is a regular file
  (app.py:60). The model returns `FileExists("temp")` in that case.

## Model

| member | source | states |
|---|---|---|
| Decimal.NatToString | app.py:71 | the part number in a part name is a non-empty string of decimal digits, with two or more digits exactly from 10 on |
| Decimal.NatToStringInjective | app.py:71 | different part numbers render as different strings |
| FileSystem.LastSlash | app.py:45 | the index found is a `/` with no `/` after it below the bound, or -1 when there is none, as `rfind('/')` gives |
| FileSystem.Basename | app.py:45 | the basename is the `/`-free tail of the path, preceded by `/` whenever it is shorter than the path |
| FileSystem.BasenameAfterSlash | app.py:45 | the basename of `dir/` followed by a `/`-free name is that name |
| PartCodec.Chunks | app.py:61-67 | the successive `read(MAX_SIZE)` results concatenate to the file, are each 1 to `m` bytes, all but the last exactly `m`, and number ceil(size / m) |
| PartCodec.PartPath | app.py:71 | every part name lies in the `temp/` directory |
| PartCodec.PartPathInjective | app.py:71 | two part numbers give the same part name only if they are equal |
| PartCodec.PartPathBasename | app.py:71 | the basename of part name `temp/<base>.part<k>` is `<base>.part<k>` |
| PartCodec.PartPathNotSource | app.py:71 | a part name `temp/<basename>.part<k>` never equals the path being split |
| PartCodec.WriteAllSpec | app.py:72-74 | writing part files at distinct paths adds exactly those paths, each with its chunk, and leaves every other file unchanged |
| PartCodec.WriteAllRead | app.py:72-74 | after writing the parts at distinct paths, reading those paths back in order gives the chunks written, and no earlier file is lost |
| PartCodec.Split | app.py:43-79 | split fails exactly when the source is missing, or when it is over the limit and `temp` is a regular file; every returned path exists afterwards |
| PartCodec.SplitFastPath | app.py:55-57 | the result is the one-element list of the source itself exactly when the file is at most `m` bytes, and then nothing on disk changes |
| PartCodec.SplitPartSizes | app.py:61-78 | the part count is 1 for a small file and ceil(size / m) otherwise; every part is at most `m` bytes, non-empty on a real split, and all but the last are exactly `m` |
| PartCodec.SplitConcatenation | app.py:61-79 | concatenating the returned parts' contents in returned order gives back the original bytes |
| PartCodec.SplitNaming | app.py:62-78 | the returned paths are pairwise distinct; on a real split they are `temp/<basename>.part1..n` in order and none is the source |
| PartCodec.SplitFrame | app.py:60-79 | split adds only the part files, changes no other file, and creates only the `temp` directory, and only on a real split |
| PartCodec.TwelveMebibyteFile | app.py:61-78 | a 12 MiB file at the 5 MiB limit gives parts of 5, 5 and 2 MiB |
| PartCodec.ReadLoopChunks | app.py:61-78 | the read loop, from any turn on, writes the remaining `m`-byte chunks to the next part numbers in order and appends exactly those names |
| PartCodec.WriteParts | app.py:60-79 | the read loop writes chunk `k` to part name `k`, for k = 1..n, and returns those names in order |
| PartCodec.SplitFile | app.py:48-79 | the loop-based split computes exactly what `Split` describes |
| PartCodec.LoggedPartCountMismatch | app.py:53 | the printed count `size // MAX_SIZE + 1` matches the real count exactly when size is 0 or not a multiple of the limit; otherwise it is one too many |
| PartCodec.LoggedPartCountTenMebibytes | app.py:53 | a 10 MiB file is announced as 3 parts but split into 2 |
| PartCodec.FirstMissing | app.py:84-85 | reports no missing part exactly when every part exists; otherwise it reports the first missing one in list order |
| PartCodec.JoinAsWritten | app.py:81-88 | the program's join fails only naming a listed part; on success every part is gone, the destination exists unless it is a part, and every other file and directory is unchanged |
| PartCodec.CopyPartsFrame | app.py:83-87 | the copy loop, aliased or not, fails only on a listed part, removes every part, keeps the destination unless it is a part or was unlinked, and changes no other file or directory |
| PartCodec.CopyPartsUnaliased | app.py:83-87 | the program's copy loop, when the destination is not a part and no part repeats, fails at the first missing part and otherwise appends every part's bytes in order and removes every part |
| PartCodec.Join | app.py:81-88 | join fails exactly when some part is missing, naming a missing part; on success the destination holds the parts' contents in order, the other parts are removed, and every other file is unchanged |
| PartCodec.JoinAsWrittenAgrees | app.py:83-87 | when the destination is not a part and no part repeats, the program's join equals the intended join |
| PartCodec.JoinAsWrittenLosesAliasedPart | app.py:83-87 | joining a single part into its own path leaves that path removed |
| PartCodec.JoinIntoOnlyPartKeepsIt | app.py:81-88 | the intended join of a single part into its own path leaves the filesystem unchanged |
| PartCodec.SplitJoinRoundTrip | app.py:48-88 | joining the split parts into any destination that is not a part rebuilds the file there and removes every part |
| PartCodec.SplitJoinCorrectedRoundTrip | app.py:48-88 | with the intended join the split/join round trip holds for every destination |
| Manifest.Append | app.py:120 | appending keeps the earlier records, puts the new record last, and adds exactly its id to the id set |
| Manifest.FindById | app.py:131-132 | lookup finds nothing exactly when no record has the id; otherwise it finds the first record with it |
| Manifest.FindAfterAppend | app.py:120-132 | after an append, an id already present finds its old record, and otherwise the new record is found exactly when it carries the id |
| Manifest.FindAppendedFresh | app.py:101-132 | a record appended under a fresh id is what a lookup of that id finds |
| Manifest.AppendWellFormed | app.py:114-120 | appending a record whose parts are numbered 1..n keeps every record numbered 1..n |
| Transport.Fetch | app.py:17-21 | a fetch that fails reports the message id asked for |
| Transport.Send | app.py:12-15 | the new id was not fetchable from the chat before and now fetches exactly the bytes sent |
| Transport.SendKeepsFetches | app.py:12-15 | every message that could be fetched before a send still fetches the same bytes after it |
| Orchestrator.SendParts | app.py:110-118 | the upload loop adds exactly one part reference per part |
| Orchestrator.SendPartsLog | app.py:110-118 | the upload loop sends exactly the parts' bytes to the chat, one message per part, in part order, after the messages already sent |
| Orchestrator.SendPartsRefs | app.py:110-118 | the upload loop records each part once, in order, numbered on from the records already made, with the id its own send returned |
| Orchestrator.SendPartsEffects | app.py:110-118 | the upload loop's trace is one send per part, in order, carrying that part's path and id |
| Orchestrator.SendPartsFetchable | app.py:110-118 | after the upload loop each recorded id fetches its part's bytes from the chat, and every earlier message still fetches the same bytes |
| Orchestrator.Upload | app.py:98-125 | upload fails exactly when split fails, with the same error |
| Orchestrator.UploadRecord | app.py:101-123 | the record carries the given id, chat and path and lists the split parts in order, numbered 1..n; the manifest gains exactly that record at its end and is written once, after every send |
| Orchestrator.UploadFetchable | app.py:110-118 | each recorded part's id fetches that part's bytes from the upload's chat, and earlier messages are unaffected |
| Orchestrator.UploadSpec | app.py:101-123 | the record carries the given id, chat and path; its parts follow split order, numbered 1..n, each id fetching that part's bytes; the manifest gains exactly this record at its end; it is written once, after every send; earlier messages are unaffected |
| Orchestrator.UploadMessageIds | app.py:110-118 | no two parts of the record share a message id; with the log transport, which numbers messages consecutively, the ids also rise in part order |
| Orchestrator.UploadWellFormed | app.py:114-120 | upload keeps every manifest record numbered 1..n |
| Orchestrator.FetchParts | app.py:134-136 | the download loop fails only naming a part whose message cannot be fetched; on success every part path exists and no other file or directory changed |
| Orchestrator.FetchPartsSpec | app.py:134-136 | when each part's message holds some bytes, download writes exactly those bytes to the parts' paths and fetches them in manifest order |
| Orchestrator.FetchPartsEffects | app.py:134-136 | a fetch loop that succeeds fetched every part once, in list order |
| Orchestrator.Destination | app.py:138 | the destination is the new path when it is given and non-empty, and the recorded path otherwise, so it is never empty when the recorded path is not |
| Orchestrator.Retrieve | app.py:131-137 | fetching fails only naming a part's message, and building the splitter fails only naming the recorded path; on success that path and every part path exist |
| Orchestrator.Download | app.py:127-139 | an id no record carries changes nothing; errors are only a missing file or a missing message; no directory is made |
| Orchestrator.DownloadCorrected | app.py:127-139 | the same as `Download`, with the intended join |
| Orchestrator.DownloadFrame | app.py:127-139 | a successful download changes only the record's part paths and the destination; every other file is as it was |
| Orchestrator.DownloadUnknownId | app.py:127-139 | downloading an id that no record carries fetches nothing, changes nothing and succeeds |
| Orchestrator.DownloadFetchOrder | app.py:131-136 | a successful download fetched the parts of the first record with the id, each once, in manifest order |
| Orchestrator.FetchAfterUpload | app.py:131-136 | after an upload, the new id finds the new record and fetching its parts writes each part's bytes, as split, to the part's path, in order |
| Orchestrator.RetrieveAfterUpload | app.py:131-137 | after an upload, the new id is found and its parts come back locally with the bytes that were split, whenever the original path exists locally or the file took the fast path |
| Orchestrator.DownloadNeedsOriginal | app.py:137 | a file larger than the limit cannot be downloaded, to any destination, once its original path is gone locally: the error names that path |
| Orchestrator.UploadDownloadRoundTrip | app.py:98-139 | upload then download of the new id rebuilds the original bytes at the destination and leaves no part file, when the destination is not a part path and the original path exists or the file took the fast path |
| Orchestrator.UploadDownloadCorrectedRoundTrip | app.py:98-139 | with the intended join, upload then download rebuilds the original bytes at any destination, when the original path exists or the file took the fast path |
| Orchestrator.SmallFileNewPathRemovesOriginal | app.py:134-138 | a file of at most `MAX_SIZE` bytes downloaded to a new non-empty path ends up at that path and no longer at its original path, under both joins |
| Orchestrator.SmallFileDownloadDeletesOriginal | app.py:145-149 | uploading a file of at most `MAX_SIZE` bytes and downloading it with no new path deletes the file; the intended join keeps it intact |

## Left out

- `TelegramBot`'s network client, `create_group` and `create_channel` are left out. They are foreign calls. The transport is the message log in `Transport`, and transport failures other than a missing message are not modelled.
- `App.__init__` is left out: it reads `.env` and parses `API_ID`, which is configuration only.
- Reading and writing the manifest as JSON is left out. The manifest is a structured value, and a corrupt or missing manifest file is not modelled. "Manifest written" is an effect in the trace.
- `uuid.uuid4` is left out: the id is a parameter. Fresh-id lemmas require it to be absent from the manifest.
- `FileManager` is left out: it creates an empty file and nothing uses it.
- `print` logging is left out, except for the wrong part count, which is stated as a property.
- The `__main__` driver is not modelled as a program. Its upload-then-download flow is the subject of `Orchestrator.SmallFileDownloadDeletesOriginal`.
- Paths are compared as strings: there is no normalisation, no symlink resolution and no case folding. So `./README.md` and `README.md` are two files here, and "the destination is not a part" in the round-trip lemmas means string inequality; a destination that names a part through another spelling is outside what they promise.
- Paths and removal follow POSIX semantics. The basename splits only at `/`, so Windows separators `\` and drive letters are ordinary characters, and removing a file that is still open unlinks it. On Windows `os.remove` of the open destination raises `PermissionError` instead, which is not modelled.
- PartCodec.JoinAsWritten: the return value of `join`, which is the destination path (app.py:88), is not modelled, because `download` discards it (app.py:138). The result is the filesystem only.
- Directories are not tracked, apart from `temp`: part and destination writes are assumed to find their parent directory, and permissions, non-regular files, disk-full and partial writes are out of scope.
- `m <= 0` is excluded by `requires m > 0`, because the program's limit is a positive constant.
- PartCodec.JoinAsWritten: writes go straight through to the destination, and the destination is unlinked when it is removed as a part. Python's write buffering is not modelled. For the one-part aliased case both orders give the same outcome.
- PartCodec.JoinAsWritten: the files left behind by a failed join are not modelled; the result is just the error. By then the program has emptied the destination, appended the parts read so far to it and removed those parts, so a repeated or missing part leaves a partial destination behind.
- PartCodec.Join: the files left behind by a failed join are not stated. The contract says only which error is raised.
- Orchestrator.Download: after a failed fetch, the part files already written are not modelled. The result is just the error.

## Findings

| source | as written | input that shows it | evidently intended | confidence | as-written member | corrected member |
|---|---|---|---|---|---|---|
| app.py:83-87 | `join` opens the destination for writing, which truncates it, before reading the parts, and then removes each part, even when the destination is itself a part | any file of at most 5 MiB uploaded and then downloaded with no new path (the `__main__` flow at app.py:145-149): its only part is the file itself, so the file is emptied and then deleted (POSIX), or left empty with a `PermissionError` from `os.remove` (Windows) | the destination ends up holding the parts' contents in order, whatever its path | not executed | PartCodec.JoinAsWritten, shown by Orchestrator.SmallFileDownloadDeletesOriginal | PartCodec.Join, used by Orchestrator.DownloadCorrected and Orchestrator.UploadDownloadCorrectedRoundTrip |
| app.py:53 | the announced part count is `size // MAX_SIZE + 1` | a file of exactly 10 MiB is announced as 3 parts but split into 2 | the count `split` actually produces, ceil(size / MAX_SIZE) or 1 when the file fits | not executed | PartCodec.LoggedPartCount, shown by PartCodec.LoggedPartCountMismatch | PartCodec.PartCount, proved to be the real count by PartCodec.SplitPartSizes |

=== FILE: common.dfy ===
/**
  Shared vocabulary of the model: bytes, paths, message identifiers, the
  error kinds the program can raise, and a Result type for operations that
  raise them.
 */
module Common {

  type Byte = bv8
  type Bytes = seq<Byte>

  /** A filesystem path or chat name, as a Python `str`. */
  type Path = string

  /** A transport-assigned message identifier. */
  type MsgId = nat

  datatype Option<+T> = None | Some(value: T)

  /** The exceptions the modelled code can raise. */
  datatype Error =
    | FileNotFound(path: Path)      // open/getsize on a path that does not exist
    | FileExists(path: Path)        // os.makedirs on a path held by a regular file
    | MessageNotFound(id: MsgId)    // fetching a message the transport does not hold

  datatype Result<+T> = Ok(value: T) | Err(error: Error)

  /** The concatenation of a sequence of byte strings, in order. */
  function Flatten(cs: seq<Bytes>): Bytes
  {
    if |cs| == 0 then [] else cs[0] + Flatten(cs[1..])
  }

  lemma ConcatAssoc<T>(a: seq<T>, b: seq<T>, c: seq<T>)
    ensures (a + b) + c == a + (b + c)
  {
  }

  lemma FlattenOne(b: Bytes)
    ensures Flatten([b]) == b
  {
    assert Flatten([b]) == b + Flatten([]);
  }

  lemma NotIn<T>(s: seq<T>, x: T)
    requires forall i :: 0 <= i < |s| ==> s[i] != x
    ensures x !in s
  {
  }

  /** No element occurs twice. */
  predicate Distinct<T(==)>(s: seq<T>)
  {
    forall i, j :: 0 <= i < j < |s| ==> s[i] != s[j]
  }
}

=== FILE: decimal.dfy ===
/**
  Decimal rendering of natural numbers, as Python's `str(k)` does for the
  part counter in a part file name.
 */
module Decimal {

  const Digits: string := "0123456789"

  function DigitChar(d: nat): (c: char)
    requires d < 10
    ensures '0' <= c <= '9'
  {
    Digits[d]
  }

  lemma DigitCharInjective(a: nat, b: nat)
    requires a < 10 && b < 10
    requires DigitChar(a) == DigitChar(b)
    ensures a == b
  {
  }

  /** The shortest decimal numeral of `n`, most significant digit first. */
  function NatToString(n: nat): (s: string)
    ensures 1 <= |s|
    ensures n >= 10 <==> |s| >= 2
    ensures forall i :: 0 <= i < |s| ==> '0' <= s[i] <= '9'
    decreases n
  {
    if n < 10 then [DigitChar(n)] else NatToString(n / 10) + [DigitChar(n % 10)]
  }

  /** Different numbers render differently. */
  lemma {:induction false} NatToStringInjective(a: nat, b: nat)
    requires NatToString(a) == NatToString(b)
    ensures a == b
    decreases a
  {
    if a < 10 && b < 10 {
      DigitCharInjective(a, b);
    } else if a >= 10 && b >= 10 {
      var sa, sb := NatToString(a), NatToString(b);
      assert sa[..|sa| - 1] == NatToString(a / 10);
      assert sb[..|sb| - 1] == NatToString(b / 10);
      NatToStringInjective(a / 10, b / 10);
      DigitCharInjective(a % 10, b % 10);
    }
  }

  /** A numeral holds no path separator. */
  lemma NoSlash(n: nat)
    ensures '/' !in NatToString(n)
  {
    var s := NatToString(n);
    forall i | 0 <= i < |s|
      ensures s[i] != '/'
    {
    }
  }
}

=== FILE: filesystem.dfy ===
/**
  The local filesystem as a value: regular files by path, and the set of
  directories known to exist. Only the scratch directory that splitting
  creates is ever added to `dirs`.
 */
module FileSystem {
  import opened Common

  datatype Fs = Fs(files: map<Path, Bytes>, dirs: set<Path>)

  /**
    `p.rfind('/')` restricted to `p[..n]`: the index of the last `/` before
    `n`, or -1 when there is none.
   */
  function LastSlash(p: Path, n: nat): (i: int)
    requires n <= |p|
    ensures -1 <= i < n
    ensures i >= 0 ==> p[i] == '/'
    ensures forall j :: i < j < n ==> p[j] != '/'
    decreases n
  {
    if n == 0 then -1
    else if p[n - 1] == '/' then n - 1
    else LastSlash(p, n - 1)
  }

  /** `os.path.basename` on POSIX: `p[p.rfind('/') + 1:]`, the part of `p` after its last `/`. */
  function Basename(p: Path): (b: Path)
    ensures '/' !in b
    ensures |b| <= |p| && p[|p| - |b|..] == b
    ensures |b| < |p| ==> p[|p| - |b| - 1] == '/'
  {
    p[LastSlash(p, |p|) + 1..]
  }

  /** Whatever precedes a `/`, the basename is the `/`-free text after it. */
  lemma BasenameAfterSlash(dir: Path, name: Path)
    requires |dir| > 0 && dir[|dir| - 1] == '/'
    requires '/' !in name
    ensures Basename(dir + name) == name
  {
    var p := dir + name;
    var i := LastSlash(p, |p|);
    assert p[|dir| - 1] == '/';
    assert i == |dir| - 1;
    assert p[|dir|..] == name;
  }
}

=== FILE: manifest.dfy ===
/**
  The manifest `file_uploaded.json` as a structured value: a `files` list
  of records, one per uploaded file, each listing its parts in order.
 */
module Manifest {
  import opened Common

  /** One entry of a record's `parts`: `{order, message_id, file_path}`. */
  datatype PartRef = PartRef(order: nat, messageId: MsgId, filePath: Path)

  /** One entry of `files`: `{id, chat_target, file_path, parts}`. */
  datatype FileRecord = FileRecord(id: string, chatTarget: Path, filePath: Path, parts: seq<PartRef>)

  /** The whole document, `{"files": [...]}`. */
  datatype Manifest = Manifest(files: seq<FileRecord>)

  /** Part numbers run 1, 2, ..., n in list order: contiguous and ascending. */
  predicate Ordered(parts: seq<PartRef>)
  {
    forall i :: 0 <= i < |parts| ==> parts[i].order == i + 1
  }

  /** Every record of the manifest lists its parts in order. */
  predicate WellFormed(man: Manifest)
  {
    forall i :: 0 <= i < |man.files| ==> Ordered(man.files[i].parts)
  }

  /** The identifiers of all records. */
  function Ids(man: Manifest): set<string>
  {
    set r | r in man.files :: r.id
  }

  /** The local paths of a record's parts, in list order. */
  function PartPaths(parts: seq<PartRef>): (ps: seq<Path>)
  {
    seq(|parts|, i requires 0 <= i < |parts| => parts[i].filePath)
  }

  /**
    `files["files"].append(record)`: one record more, at the end, and the
    earlier records exactly as they were.
   */
  function Append(man: Manifest, rec: FileRecord): (r: Manifest)
    ensures |r.files| == |man.files| + 1
    ensures r.files[..|man.files|] == man.files
    ensures r.files[|man.files|] == rec
    ensures Ids(r) == Ids(man) + {rec.id}
  {
    var r := Manifest(man.files + [rec]);
    assert forall x :: x in r.files <==> x in man.files || x == rec;
    r
  }

  /**
    The lookup loop of `download`: the first record, in list order, whose
    id is `id`; none when no record has it.
   */
  function FindById(files: seq<FileRecord>, id: string): (r: Option<FileRecord>)
    ensures r.None? <==> forall i :: 0 <= i < |files| ==> files[i].id != id
    ensures r.Some? ==> exists i :: 0 <= i < |files| && files[i] == r.value && r.value.id == id
                          && forall j :: 0 <= j < i ==> files[j].id != id
    decreases |files|
  {
    if |files| == 0 then None
    else if files[0].id == id then Some(files[0])
    else
      var r := FindById(files[1..], id);
      if r.Some? then
        var i :| 0 <= i < |files| - 1 && files[1..][i] == r.value && r.value.id == id
                 && forall j :: 0 <= j < i ==> files[1..][j].id != id;
        assert files[i + 1] == r.value;
        r
      else
        assert forall i :: 1 <= i < |files| ==> files[i] == files[1..][i - 1];
        r
  }

  /**
    Lookup after an append: an id already present still finds its old
    record, and otherwise the appended record is found exactly when it
    carries the id.
   */
  lemma {:induction false} FindAfterAppend(files: seq<FileRecord>, rec: FileRecord, id: string)
    ensures FindById(files + [rec], id) ==
      if FindById(files, id).Some? then FindById(files, id)
      else if rec.id == id then Some(rec)
      else None
    decreases |files|
  {
    if |files| == 0 {
      assert files + [rec] == [rec];
    } else {
      assert (files + [rec])[1..] == files[1..] + [rec];
      FindAfterAppend(files[1..], rec, id);
    }
  }

  /** A record appended under a fresh id is what a lookup of that id finds. */
  lemma FindAppendedFresh(man: Manifest, rec: FileRecord)
    requires rec.id !in Ids(man)
    ensures FindById(Append(man, rec).files, rec.id) == Some(rec)
  {
    FindAfterAppend(man.files, rec, rec.id);
  }

  /** Appending a record whose parts are in order keeps the manifest well formed. */
  lemma AppendWellFormed(man: Manifest, rec: FileRecord)
    requires WellFormed(man) && Ordered(rec.parts)
    ensures WellFormed(Append(man, rec))
  {
    var r := Append(man, rec);
    forall i | 0 <= i < |r.files|
      ensures Ordered(r.files[i].parts)
    {
      if i < |man.files| {
        assert r.files[i] == r.files[..|man.files|][i];
      }
    }
  }
}

=== FILE: orchestrator.dfy ===
/**
  `App.upload` and `App.download` (app.py): the bookkeeping that ties a
  split file to the messages holding its parts and back. The manifest, the
  local filesystem and the transport are values passed in and returned; the
  upload id, which the program draws with `uuid4`, is a parameter.
 */
module Orchestrator {
  import opened Common
  import opened FileSystem
  import opened PartCodec
  import opened Manifest
  import opened Transport

  /** The observable steps, in the order they happen. */
  datatype Effect =
    | Sent(chat: Path, path: Path, id: MsgId)      // one part handed to the transport
    | Fetched(chat: Path, id: MsgId, path: Path)   // one part written back locally
    | ManifestWritten                             // `file_uploaded.json` rewritten

  /** State after the loop of `upload` has sent some parts. */
  datatype Sending = Sending(store: Store, refs: seq<PartRef>, effects: seq<Effect>)

  /**
    One pass of the loop of `upload`: send the part at `path`, then record
    `{order: len(parts) + 1, message_id, file_path}` for it. The id is the
    next one of the log.
   */
  function SendOne(files: map<Path, Bytes>, chat: Path, path: Path, acc: Sending): (r: Sending)
    requires path in files
    ensures r.store.log == acc.store.log + [Message(chat, files[path])]
    ensures r.refs == acc.refs + [PartRef(|acc.refs| + 1, |acc.store.log| + 1, path)]
    ensures r.effects == acc.effects + [Sent(chat, path, |acc.store.log| + 1)]
  {
    var (store, id) := Send(acc.store, chat, files[path]);
    Sending(store, acc.refs + [PartRef(|acc.refs| + 1, id, path)], acc.effects + [Sent(chat, path, id)])
  }

  /** The loop of `upload`: send each part in order. */
  function SendParts(files: map<Path, Bytes>, chat: Path, paths: seq<Path>, acc: Sending): (r: Sending)
    requires forall p :: p in paths ==> p in files
    ensures |r.refs| == |acc.refs| + |paths|
    decreases |paths|
  {
    if |paths| == 0 then acc
    else SendParts(files, chat, paths[1..], SendOne(files, chat, paths[0], acc))
  }

  /** The messages the loop sends for `paths`, in order. */
  function PartMessages(files: map<Path, Bytes>, chat: Path, paths: seq<Path>): seq<Message>
    requires forall p :: p in paths ==> p in files
  {
    seq(|paths|, i requires 0 <= i < |paths| => Message(chat, files[paths[i]]))
  }

  /** The records the loop makes: part `i` numbered on from `start`, with message `first + i`. */
  function NewRefs(start: nat, first: nat, paths: seq<Path>): seq<PartRef>
  {
    seq(|paths|, i requires 0 <= i < |paths| => PartRef(start + i + 1, first + i, paths[i]))
  }

  /** The sends the loop performs for `refs`, in order. */
  function SentEffects(chat: Path, refs: seq<PartRef>): seq<Effect>
  {
    seq(|refs|, i requires 0 <= i < |refs| => Sent(chat, refs[i].filePath, refs[i].messageId))
  }

  lemma PartMessagesCons(files: map<Path, Bytes>, chat: Path, paths: seq<Path>)
    requires |paths| > 0 && forall p :: p in paths ==> p in files
    ensures PartMessages(files, chat, paths) == [Message(chat, files[paths[0]])] + PartMessages(files, chat, paths[1..])
  {
  }

  lemma NewRefsCons(start: nat, first: nat, paths: seq<Path>)
    requires |paths| > 0
    ensures NewRefs(start, first, paths) == [PartRef(start + 1, first, paths[0])] + NewRefs(start + 1, first + 1, paths[1..])
  {
  }

  lemma SentEffectsCons(chat: Path, ref: PartRef, refs: seq<PartRef>)
    ensures SentEffects(chat, [ref] + refs) == [Sent(chat, ref.filePath, ref.messageId)] + SentEffects(chat, refs)
  {
  }

  /** The loop sends the parts' bytes in order, one message each. */
  lemma {:induction false} SendPartsLog(files: map<Path, Bytes>, chat: Path, paths: seq<Path>, acc: Sending)
    requires forall p :: p in paths ==> p in files
    ensures SendParts(files, chat, paths, acc).store.log == acc.store.log + PartMessages(files, chat, paths)
    decreases |paths|
  {
    if |paths| == 0 {
      assert acc.store.log + [] == acc.store.log;
    } else {
      var msg := Message(chat, files[paths[0]]);
      var next := SendOne(files, chat, paths[0], acc);
      SendPartsLog(files, chat, paths[1..], next);
      PartMessagesCons(files, chat, paths);
      ConcatAssoc(acc.store.log, [msg], PartMessages(files, chat, paths[1..]));
    }
  }

  /**
    The loop records each part once, in order, numbered on from the records
    already there, with the id its own send returned.
   */
  lemma {:induction false} SendPartsRefs(files: map<Path, Bytes>, chat: Path, paths: seq<Path>, acc: Sending)
    requires forall p :: p in paths ==> p in files
    ensures SendParts(files, chat, paths, acc).refs == acc.refs + NewRefs(|acc.refs|, |acc.store.log| + 1, paths)
    decreases |paths|
  {
    if |paths| == 0 {
      assert acc.refs + [] == acc.refs;
    } else {
      var ref := PartRef(|acc.refs| + 1, |acc.store.log| + 1, paths[0]);
      var next := SendOne(files, chat, paths[0], acc);
      SendPartsRefs(files, chat, paths[1..], next);
      NewRefsCons(|acc.refs|, |acc.store.log| + 1, paths);
      ConcatAssoc(acc.refs, [ref], NewRefs(|acc.refs| + 1, |acc.store.log| + 2, paths[1..]));
    }
  }

  /** The loop's trace is one send per part, in order, with that part's id. */
  lemma {:induction false} SendPartsEffects(files: map<Path, Bytes>, chat: Path, paths: seq<Path>, acc: Sending)
    requires forall p :: p in paths ==> p in files
    ensures SendParts(files, chat, paths, acc).effects
         == acc.effects + SentEffects(chat, NewRefs(|acc.refs|, |acc.store.log| + 1, paths))
    decreases |paths|
  {
    if |paths| == 0 {
      assert acc.effects + [] == acc.effects;
    } else {
      var ref := PartRef(|acc.refs| + 1, |acc.store.log| + 1, paths[0]);
      var eff := Sent(chat, paths[0], |acc.store.log| + 1);
      var next := SendOne(files, chat, paths[0], acc);
      SendPartsEffects(files, chat, paths[1..], next);
      var later := NewRefs(|acc.refs| + 1, |acc.store.log| + 2, paths[1..]);
      NewRefsCons(|acc.refs|, |acc.store.log| + 1, paths);
      SentEffectsCons(chat, ref, later);
      ConcatAssoc(acc.effects, [eff], SentEffects(chat, later));
    }
  }

  /** What `upload` leaves behind and returns. */
  datatype Uploaded = Uploaded(fs: Fs, manifest: Manifest, store: Store, record: FileRecord, effects: seq<Effect>)

  /**
    `App.upload(chat_target, file_path)` with `uuid` as the new record's id
    and `m` as `MAX_SIZE`: split, send every part in order, append one
    record, then write the manifest.
   */
  function Upload(fs: Fs, man: Manifest, store: Store, chat: Path, src: Path, uuid: string, m: nat): (r: Result<Uploaded>)
    requires m > 0
    ensures r.Err? <==> Split(fs, src, m).Err?
    ensures r.Err? ==> r.error == Split(fs, src, m).error
  {
    match Split(fs, src, m)
    case Err(e) => Err(e)
    case Ok(pc) =>
      var sent := SendParts(pc.fs.files, chat, pc.paths, Sending(store, [], []));
      var rec := FileRecord(uuid, chat, src, sent.refs);
      Ok(Uploaded(pc.fs, Append(man, rec), sent.store, rec, sent.effects + [ManifestWritten]))
  }

  /**
    Upload ordering and manifest write: the record has one part per split
    part, in split order, numbered 1..n; the manifest gains exactly that
    record at its end; and the manifest is written once, after every part
    has been sent.
   */
  lemma UploadRecord(fs: Fs, man: Manifest, store: Store, chat: Path, src: Path, uuid: string, m: nat)
    requires m > 0 && Upload(fs, man, store, chat, src, uuid, m).Ok?
    ensures var u := Upload(fs, man, store, chat, src, uuid, m).value;
      var pc := Split(fs, src, m).value;
      var parts := u.record.parts;
      && u.fs == pc.fs
      && u.record.id == uuid && u.record.chatTarget == chat && u.record.filePath == src
      && PartPaths(parts) == pc.paths
      && Ordered(parts)
      && u.manifest.files == man.files + [u.record]
      && u.effects == SentEffects(chat, parts) + [ManifestWritten]
  {
    var pc := Split(fs, src, m).value;
    var acc := Sending(store, [], []);
    SendPartsRefs(pc.fs.files, chat, pc.paths, acc);
    SendPartsEffects(pc.fs.files, chat, pc.paths, acc);
    var sent := SendParts(pc.fs.files, chat, pc.paths, acc);
    assert sent.refs == NewRefs(0, |store.log| + 1, pc.paths);
    assert [] + SentEffects(chat, sent.refs) == SentEffects(chat, sent.refs);
    assert PartPaths(sent.refs) == pc.paths;
  }

  /**
    After the loop, each new record's message id fetches, from the chat,
    exactly the bytes of its part, and every message that could be fetched
    before still fetches the same bytes.
   */
  lemma SendPartsFetchable(files: map<Path, Bytes>, chat: Path, paths: seq<Path>, store: Store)
    requires forall p :: p in paths ==> p in files
    ensures var sent := SendParts(files, chat, paths, Sending(store, [], []));
      && (forall i :: 0 <= i < |sent.refs| ==> Fetch(sent.store, chat, sent.refs[i].messageId) == Ok(files[paths[i]]))
      && (forall c, id :: Fetch(store, c, id).Ok? ==> Fetch(sent.store, c, id) == Fetch(store, c, id))
  {
    var acc := Sending(store, [], []);
    SendPartsLog(files, chat, paths, acc);
    SendPartsRefs(files, chat, paths, acc);
    var sent := SendParts(files, chat, paths, acc);
    var log := sent.store.log;
    assert sent.refs == NewRefs(0, |store.log| + 1, paths);
    forall i | 0 <= i < |sent.refs|
      ensures Fetch(sent.store, chat, sent.refs[i].messageId) == Ok(files[paths[i]])
    {
      assert log[|store.log| + i] == Message(chat, files[paths[i]]);
    }
    forall c, id | Fetch(store, c, id).Ok?
      ensures Fetch(sent.store, c, id) == Fetch(store, c, id)
    {
      assert log[id - 1] == store.log[id - 1];
    }
  }

  /**
    Each recorded part's message id fetches, from the upload's chat, exactly
    the bytes of that part; every message that could be fetched before the
    upload still fetches the same bytes.
   */
  lemma UploadFetchable(fs: Fs, man: Manifest, store: Store, chat: Path, src: Path, uuid: string, m: nat)
    requires m > 0 && Upload(fs, man, store, chat, src, uuid, m).Ok?
    ensures var u := Upload(fs, man, store, chat, src, uuid, m).value;
      var pc := Split(fs, src, m).value;
      var parts := u.record.parts;
      && |parts| == |pc.paths|
      && (forall i :: 0 <= i < |parts| ==> Fetch(u.store, chat, parts[i].messageId) == Ok(pc.fs.files[pc.paths[i]]))
      && (forall c, id :: Fetch(store, c, id).Ok? ==> Fetch(u.store, c, id) == Fetch(store, c, id))
  {
    var pc := Split(fs, src, m).value;
    SendPartsFetchable(pc.fs.files, chat, pc.paths, store);
  }

  /**
    Everything an upload promises, together: the record's parts follow
    split order, numbered 1..n, each with the id that fetches that part's
    bytes; the manifest gains exactly that record at its end and is written
    after every send; earlier messages are unaffected.
   */
  lemma UploadSpec(fs: Fs, man: Manifest, store: Store, chat: Path, src: Path, uuid: string, m: nat)
    requires m > 0 && Upload(fs, man, store, chat, src, uuid, m).Ok?
    ensures var u := Upload(fs, man, store, chat, src, uuid, m).value;
      var pc := Split(fs, src, m).value;
      var parts := u.record.parts;
      && u.fs == pc.fs
      && u.record.id == uuid && u.record.chatTarget == chat && u.record.filePath == src
      && PartPaths(parts) == pc.paths
      && Ordered(parts)
      && (forall i :: 0 <= i < |parts| ==> Fetch(u.store, chat, parts[i].messageId) == Ok(pc.fs.files[pc.paths[i]]))
      && u.manifest.files == man.files + [u.record]
      && u.effects == SentEffects(chat, parts) + [ManifestWritten]
      && (forall c, id :: Fetch(store, c, id).Ok? ==> Fetch(u.store, c, id) == Fetch(store, c, id))
  {
    UploadRecord(fs, man, store, chat, src, uuid, m);
    UploadFetchable(fs, man, store, chat, src, uuid, m);
  }

  /**
    Each part gets its own message: no two recorded ids are equal. With the
    log transport, which numbers messages consecutively, they also rise in
    part order.
   */
  lemma UploadMessageIds(fs: Fs, man: Manifest, store: Store, chat: Path, src: Path, uuid: string, m: nat)
    requires m > 0 && Upload(fs, man, store, chat, src, uuid, m).Ok?
    ensures var parts := Upload(fs, man, store, chat, src, uuid, m).value.record.parts;
      forall i, j :: 0 <= i < |parts| && 0 <= j < |parts| && i != j ==> parts[i].messageId != parts[j].messageId
    ensures var parts := Upload(fs, man, store, chat, src, uuid, m).value.record.parts;
      forall i, j :: 0 <= i < j < |parts| ==> parts[i].messageId < parts[j].messageId
  {
    var pc := Split(fs, src, m).value;
    SendPartsRefs(pc.fs.files, chat, pc.paths, Sending(store, [], []));
    var sent := SendParts(pc.fs.files, chat, pc.paths, Sending(store, [], []));
    assert sent.refs == NewRefs(0, |store.log| + 1, pc.paths);
    NewRefsIds(0, |store.log| + 1, pc.paths);
  }

  /** The records made for consecutive messages carry rising, hence distinct, ids. */
  lemma NewRefsIds(start: nat, first: nat, paths: seq<Path>)
    ensures var refs := NewRefs(start, first, paths);
      forall i, j :: 0 <= i < |refs| && 0 <= j < |refs| && i != j ==> refs[i].messageId != refs[j].messageId
    ensures var refs := NewRefs(start, first, paths);
      forall i, j :: 0 <= i < j < |refs| ==> refs[i].messageId < refs[j].messageId
  {
  }

  /** Uploading keeps every record of the manifest listing its parts in order. */
  lemma UploadWellFormed(fs: Fs, man: Manifest, store: Store, chat: Path, src: Path, uuid: string, m: nat)
    requires m > 0 && WellFormed(man) && Upload(fs, man, store, chat, src, uuid, m).Ok?
    ensures WellFormed(Upload(fs, man, store, chat, src, uuid, m).value.manifest)
  {
    UploadRecord(fs, man, store, chat, src, uuid, m);
    var u := Upload(fs, man, store, chat, src, uuid, m).value;
    AppendWellFormed(man, u.record);
  }

  // -----------------------------------------------------------------------
  // download

  /** What `download` leaves behind. */
  datatype Downloaded = Downloaded(fs: Fs, effects: seq<Effect>)

  /**
    The loop of `download`: fetch each part in list order to its recorded
    path. It fails on the first part whose message cannot be fetched; on
    success every part path exists and no other file or directory changed.
   */
  function FetchParts(fs: Fs, store: Store, chat: Path, parts: seq<PartRef>, effects: seq<Effect>): (r: Result<Downloaded>)
    ensures r.Err? ==> exists i :: 0 <= i < |parts| && r.error == MessageNotFound(parts[i].messageId)
                                   && Fetch(store, chat, parts[i].messageId).Err?
    ensures r.Ok? ==> r.value.fs.dirs == fs.dirs
    ensures r.Ok? ==> forall p :: p in PartPaths(parts) ==> p in r.value.fs.files
    ensures r.Ok? ==> forall p :: p !in PartPaths(parts) ==>
                        (p in r.value.fs.files <==> p in fs.files) && (p in fs.files ==> r.value.fs.files[p] == fs.files[p])
    decreases |parts|
  {
    if |parts| == 0 then Ok(Downloaded(fs, effects))
    else
      var ref := parts[0];
      match Fetch(store, chat, ref.messageId)
      case Err(e) => Err(e)
      case Ok(data) =>
        var r := FetchParts(fs.(files := fs.files[ref.filePath := data]), store, chat, parts[1..],
                            effects + [Fetched(chat, ref.messageId, ref.filePath)]);
        assert PartPaths(parts) == [ref.filePath] + PartPaths(parts[1..]);
        assert forall i :: 0 <= i < |parts| - 1 ==> parts[1..][i] == parts[i + 1];
        r
  }

  /** The fetches the loop performs for `parts`, in order. */
  function FetchedEffects(chat: Path, parts: seq<PartRef>): seq<Effect>
  {
    seq(|parts|, i requires 0 <= i < |parts| => Fetched(chat, parts[i].messageId, parts[i].filePath))
  }

  /**
    When every part's message holds `contents[i]`, fetching writes exactly
    those bytes to the parts' paths, in order, and records one fetch per
    part in manifest order.
   */
  lemma {:induction false} FetchPartsSpec(fs: Fs, store: Store, chat: Path, parts: seq<PartRef>,
                                          effects: seq<Effect>, contents: seq<Bytes>)
    requires |contents| == |parts|
    requires forall i :: 0 <= i < |parts| ==> Fetch(store, chat, parts[i].messageId) == Ok(contents[i])
    ensures FetchParts(fs, store, chat, parts, effects)
         == Ok(Downloaded(fs.(files := WriteAll(fs.files, PartPaths(parts), contents)),
                          effects + FetchedEffects(chat, parts)))
    decreases |parts|
  {
    if |parts| == 0 {
      assert effects + [] == effects;
    } else {
      var ref := parts[0];
      var fs1 := fs.(files := fs.files[ref.filePath := contents[0]]);
      var effects1 := effects + [Fetched(chat, ref.messageId, ref.filePath)];
      assert FetchParts(fs, store, chat, parts, effects) == FetchParts(fs1, store, chat, parts[1..], effects1);
      forall i | 0 <= i < |parts| - 1
        ensures Fetch(store, chat, parts[1..][i].messageId) == Ok(contents[1..][i])
      {
        assert parts[1..][i] == parts[i + 1];
      }
      FetchPartsSpec(fs1, store, chat, parts[1..], effects1, contents[1..]);
      assert PartPaths(parts)[1..] == PartPaths(parts[1..]);
      assert WriteAll(fs.files, PartPaths(parts), contents)
          == WriteAll(fs1.files, PartPaths(parts[1..]), contents[1..]);
      assert fs1.(files := WriteAll(fs1.files, PartPaths(parts[1..]), contents[1..]))
          == fs.(files := WriteAll(fs.files, PartPaths(parts), contents));
      assert FetchedEffects(chat, parts) == [Fetched(chat, ref.messageId, ref.filePath)] + FetchedEffects(chat, parts[1..]);
      assert effects1 + FetchedEffects(chat, parts[1..]) == effects + FetchedEffects(chat, parts);
    }
  }

  /**
    Where `download` joins to: `new_file_path or file['file_path']`, so an
    empty new path falls back to the recorded one.
   */
  function Destination(newPath: Option<Path>, rec: FileRecord): (d: Path)
    ensures d == rec.filePath || (newPath.Some? && d == newPath.value)
    ensures newPath.Some? && newPath.value != "" ==> d == newPath.value
    ensures rec.filePath != "" ==> d != ""
  {
    if newPath.Some? && newPath.value != "" then newPath.value else rec.filePath
  }

  /**
    The part of `download` before the join: fetch every part, then build
    `FileSplitter(file['file_path'])`, whose `os.path.getsize` fails unless
    the recorded original path exists locally.
   */
  function Retrieve(fs: Fs, store: Store, rec: FileRecord): (r: Result<Downloaded>)
    ensures r.Err? ==> r.error == FileNotFound(rec.filePath)
                       || exists i :: 0 <= i < |rec.parts| && r.error == MessageNotFound(rec.parts[i].messageId)
    ensures r.Ok? ==> rec.filePath in r.value.fs.files && r.value.fs.dirs == fs.dirs
    ensures r.Ok? ==> forall p :: p in PartPaths(rec.parts) ==> p in r.value.fs.files
  {
    match FetchParts(fs, store, rec.chatTarget, rec.parts, [])
    case Err(e) => Err(e)
    case Ok(d) =>
      if rec.filePath !in d.fs.files then Err(FileNotFound(rec.filePath)) else Ok(d)
  }

  /**
    `App.download(id, new_file_path)` as the program writes it: an unknown
    id does nothing; otherwise the first record with that id is fetched and
    joined by the program's `join`.
   */
  function Download(fs: Fs, man: Manifest, store: Store, id: string, newPath: Option<Path>): (r: Result<Downloaded>)
    ensures FindById(man.files, id).None? ==> r == Ok(Downloaded(fs, []))
    ensures r.Err? ==> r.error.FileNotFound? || r.error.MessageNotFound?
    ensures r.Ok? ==> r.value.fs.dirs == fs.dirs
  {
    match FindById(man.files, id)
    case None => Ok(Downloaded(fs, []))
    case Some(rec) =>
      match Retrieve(fs, store, rec)
      case Err(e) => Err(e)
      case Ok(d) =>
        match JoinAsWritten(d.fs, Destination(newPath, rec), PartPaths(rec.parts))
        case Err(e) => Err(e)
        case Ok(fs') => Ok(Downloaded(fs', d.effects))
  }

  /** `download` with the intended `join`, which reads every part before writing. */
  function DownloadCorrected(fs: Fs, man: Manifest, store: Store, id: string, newPath: Option<Path>): (r: Result<Downloaded>)
    ensures FindById(man.files, id).None? ==> r == Ok(Downloaded(fs, []))
    ensures r.Err? ==> r.error.FileNotFound? || r.error.MessageNotFound?
    ensures r.Ok? ==> r.value.fs.dirs == fs.dirs
  {
    match FindById(man.files, id)
    case None => Ok(Downloaded(fs, []))
    case Some(rec) =>
      match Retrieve(fs, store, rec)
      case Err(e) => Err(e)
      case Ok(d) =>
        match Join(d.fs, Destination(newPath, rec), PartPaths(rec.parts))
        case Err(e) => Err(e)
        case Ok(fs') => Ok(Downloaded(fs', d.effects))
  }

  /** An id no record carries: no fetch, no join, no error, nothing changed. */
  lemma DownloadUnknownId(fs: Fs, man: Manifest, store: Store, id: string, newPath: Option<Path>)
    requires id !in Ids(man)
    ensures Download(fs, man, store, id, newPath) == Ok(Downloaded(fs, []))
    ensures DownloadCorrected(fs, man, store, id, newPath) == Ok(Downloaded(fs, []))
  {
    forall i | 0 <= i < |man.files|
      ensures man.files[i].id != id
    {
      assert man.files[i] in man.files;
    }
  }

  /** A fetch loop that succeeds fetched every part once, in list order. */
  lemma {:induction false} FetchPartsEffects(fs: Fs, store: Store, chat: Path, parts: seq<PartRef>, effects: seq<Effect>)
    requires FetchParts(fs, store, chat, parts, effects).Ok?
    ensures FetchParts(fs, store, chat, parts, effects).value.effects == effects + FetchedEffects(chat, parts)
    decreases |parts|
  {
    if |parts| == 0 {
      assert effects + [] == effects;
    } else {
      var ref := parts[0];
      var data := Fetch(store, chat, ref.messageId).value;
      var fs1 := fs.(files := fs.files[ref.filePath := data]);
      var effects1 := effects + [Fetched(chat, ref.messageId, ref.filePath)];
      FetchPartsEffects(fs1, store, chat, parts[1..], effects1);
      assert FetchedEffects(chat, parts) == [Fetched(chat, ref.messageId, ref.filePath)] + FetchedEffects(chat, parts[1..]);
    }
  }

  /**
    Download ordering: a successful download of a known id fetched the
    parts of the first record with that id, each once, in manifest order.
   */
  lemma DownloadFetchOrder(fs: Fs, man: Manifest, store: Store, id: string, newPath: Option<Path>)
    requires FindById(man.files, id).Some?
    requires Download(fs, man, store, id, newPath).Ok?
    ensures var rec := FindById(man.files, id).value;
      Download(fs, man, store, id, newPath).value.effects == FetchedEffects(rec.chatTarget, rec.parts)
  {
    var rec := FindById(man.files, id).value;
    FetchPartsEffects(fs, store, rec.chatTarget, rec.parts, []);
    assert [] + FetchedEffects(rec.chatTarget, rec.parts) == FetchedEffects(rec.chatTarget, rec.parts);
  }

  /**
    A successful download changes only the record's part paths and the
    destination: every other file is as it was, and no directory is made.
   */
  lemma DownloadFrame(fs: Fs, man: Manifest, store: Store, id: string, newPath: Option<Path>)
    requires FindById(man.files, id).Some?
    ensures var rec := FindById(man.files, id).value;
      var r := Download(fs, man, store, id, newPath);
      r.Ok? ==> forall p :: p !in PartPaths(rec.parts) && p != Destination(newPath, rec) ==>
        (p in r.value.fs.files <==> p in fs.files) && (p in fs.files ==> r.value.fs.files[p] == fs.files[p])
    ensures var rec := FindById(man.files, id).value;
      var r := DownloadCorrected(fs, man, store, id, newPath);
      r.Ok? ==> forall p :: p !in PartPaths(rec.parts) && p != Destination(newPath, rec) ==>
        (p in r.value.fs.files <==> p in fs.files) && (p in fs.files ==> r.value.fs.files[p] == fs.files[p])
  {
  }

  // -----------------------------------------------------------------------
  // Upload followed by download

  /**
    The fetch loop after an upload: the new id finds the new record, and
    fetching its parts writes each part's bytes, as split, to the part's
    path, in order.
   */
  lemma FetchAfterUpload(fs: Fs, man: Manifest, store: Store, chat: Path, src: Path, uuid: string, m: nat, fsd: Fs)
    requires m > 0 && Upload(fs, man, store, chat, src, uuid, m).Ok?
    requires uuid !in Ids(man)
    ensures var u := Upload(fs, man, store, chat, src, uuid, m).value;
      var pc := Split(fs, src, m).value;
      && FindById(u.manifest.files, uuid) == Some(u.record)
      && u.record.chatTarget == chat && u.record.filePath == src
      && PartPaths(u.record.parts) == pc.paths
      && FetchParts(fsd, u.store, chat, u.record.parts, [])
         == Ok(Downloaded(fsd.(files := WriteAll(fsd.files, pc.paths, Read(pc.fs.files, pc.paths))),
                          FetchedEffects(chat, u.record.parts)))
  {
    var u := Upload(fs, man, store, chat, src, uuid, m).value;
    var pc := Split(fs, src, m).value;
    UploadRecord(fs, man, store, chat, src, uuid, m);
    UploadFetchable(fs, man, store, chat, src, uuid, m);
    assert u.manifest == Append(man, u.record);
    FindAppendedFresh(man, u.record);
    FetchPartsSpec(fsd, u.store, chat, u.record.parts, [], Read(pc.fs.files, pc.paths));
    assert [] + FetchedEffects(chat, u.record.parts) == FetchedEffects(chat, u.record.parts);
  }

  /**
    The fetch stage after an upload: looking the new record up and fetching
    its parts puts each part's bytes back at its recorded path, in order.
    The recorded original path must then exist for `FileSplitter` to be
    built; it does when it exists locally already, and also when the file
    took the fast path, since its one part is written back to that path.
   */
  lemma RetrieveAfterUpload(fs: Fs, man: Manifest, store: Store, chat: Path, src: Path, uuid: string, m: nat, fsd: Fs)
    requires m > 0 && Upload(fs, man, store, chat, src, uuid, m).Ok?
    requires uuid !in Ids(man)
    requires src in fsd.files || |fs.files[src]| <= m
    ensures var u := Upload(fs, man, store, chat, src, uuid, m).value;
      var pc := Split(fs, src, m).value;
      var r := Retrieve(fsd, u.store, u.record);
      && FindById(u.manifest.files, uuid) == Some(u.record)
      && r.Ok?
      && r.value.effects == FetchedEffects(chat, u.record.parts)
      && r.value.fs.dirs == fsd.dirs
      && (forall p :: p in pc.paths ==> p in r.value.fs.files)
      && Read(r.value.fs.files, pc.paths) == Read(pc.fs.files, pc.paths)
  {
    var pc := Split(fs, src, m).value;
    FetchAfterUpload(fs, man, store, chat, src, uuid, m, fsd);
    SplitNaming(fs, src, m);
    WriteAllRead(fsd.files, pc.paths, Read(pc.fs.files, pc.paths));
    if src !in fsd.files {
      SplitFastPath(fs, src, m);
    }
  }

  /**
    A file that was really split cannot be downloaded once its original path
    is gone locally: no part is stored at that path, and `FileSplitter`
    calls `os.path.getsize` on it before joining.
   */
  lemma DownloadNeedsOriginal(fs: Fs, man: Manifest, store: Store, chat: Path, src: Path, uuid: string, m: nat,
                              fsd: Fs, newPath: Option<Path>)
    requires m > 0 && Upload(fs, man, store, chat, src, uuid, m).Ok?
    requires uuid !in Ids(man)
    requires |fs.files[src]| > m && src !in fsd.files
    ensures var u := Upload(fs, man, store, chat, src, uuid, m).value;
      && Download(fsd, u.manifest, u.store, uuid, newPath) == Err(FileNotFound(src))
      && DownloadCorrected(fsd, u.manifest, u.store, uuid, newPath) == Err(FileNotFound(src))
  {
    var pc := Split(fs, src, m).value;
    FetchAfterUpload(fs, man, store, chat, src, uuid, m, fsd);
    SplitNaming(fs, src, m);
    WriteAllSpec(fsd.files, pc.paths, Read(pc.fs.files, pc.paths));
  }

  /** Download of a known record whose parts were fetched is the join of what was fetched. */
  lemma DownloadUnfold(fs: Fs, man: Manifest, store: Store, id: string, newPath: Option<Path>, rec: FileRecord, d: Downloaded)
    requires FindById(man.files, id) == Some(rec) && Retrieve(fs, store, rec) == Ok(d)
    ensures var j := JoinAsWritten(d.fs, Destination(newPath, rec), PartPaths(rec.parts));
      Download(fs, man, store, id, newPath) == if j.Ok? then Ok(Downloaded(j.value, d.effects)) else Err(j.error)
    ensures var j := Join(d.fs, Destination(newPath, rec), PartPaths(rec.parts));
      DownloadCorrected(fs, man, store, id, newPath) == if j.Ok? then Ok(Downloaded(j.value, d.effects)) else Err(j.error)
  {
  }

  /**
    Joining the parts of a split, wherever they now hold the bytes split
    off, rebuilds the file at a destination that is not a part and removes
    every part.
   */
  lemma SplitRebuild(fs: Fs, src: Path, m: nat, g: Fs, dest: Path)
    requires m > 0 && Split(fs, src, m).Ok?
    requires var pc := Split(fs, src, m).value;
      && dest !in pc.paths
      && (forall p :: p in pc.paths ==> p in g.files)
      && Read(g.files, pc.paths) == Read(pc.fs.files, pc.paths)
    ensures var r := JoinAsWritten(g, dest, Split(fs, src, m).value.paths);
      && r.Ok? && dest in r.value.files && r.value.files[dest] == fs.files[src]
      && forall p :: p in Split(fs, src, m).value.paths ==> p !in r.value.files
  {
    var pc := Split(fs, src, m).value;
    SplitNaming(fs, src, m);
    SplitConcatenation(fs, src, m);
    JoinAsWrittenAgrees(g, dest, pc.paths);
  }

  /** The same with the intended `join`, for every destination. */
  lemma SplitRebuildCorrected(fs: Fs, src: Path, m: nat, g: Fs, dest: Path)
    requires m > 0 && Split(fs, src, m).Ok?
    requires var pc := Split(fs, src, m).value;
      && (forall p :: p in pc.paths ==> p in g.files)
      && Read(g.files, pc.paths) == Read(pc.fs.files, pc.paths)
    ensures var r := Join(g, dest, Split(fs, src, m).value.paths);
      && r.Ok? && dest in r.value.files && r.value.files[dest] == fs.files[src]
      && forall p :: p in Split(fs, src, m).value.paths && p != dest ==> p !in r.value.files
  {
    SplitConcatenation(fs, src, m);
  }

  /**
    Round trip: after an upload under a fresh id, downloading that id
    fetches every part in order and rebuilds the original bytes at the
    destination, with no part file left over, provided the destination is
    not one of the part paths, and the original path exists locally or the
    file took the fast path (see `RetrieveAfterUpload`).
   */
  lemma UploadDownloadRoundTrip(fs: Fs, man: Manifest, store: Store, chat: Path, src: Path, uuid: string,
                                m: nat, fsd: Fs, newPath: Option<Path>)
    requires m > 0 && Upload(fs, man, store, chat, src, uuid, m).Ok?
    requires uuid !in Ids(man)
    requires src in fsd.files || |fs.files[src]| <= m
    requires var u := Upload(fs, man, store, chat, src, uuid, m).value;
      Destination(newPath, u.record) !in PartPaths(u.record.parts)
    ensures var u := Upload(fs, man, store, chat, src, uuid, m).value;
      var dest := Destination(newPath, u.record);
      var r := Download(fsd, u.manifest, u.store, uuid, newPath);
      && r.Ok?
      && dest in r.value.fs.files && r.value.fs.files[dest] == fs.files[src]
      && (forall p :: p in PartPaths(u.record.parts) ==> p !in r.value.fs.files)
      && r.value.effects == FetchedEffects(chat, u.record.parts)
  {
    var u := Upload(fs, man, store, chat, src, uuid, m).value;
    FetchAfterUpload(fs, man, store, chat, src, uuid, m, fsd);
    RetrieveAfterUpload(fs, man, store, chat, src, uuid, m, fsd);
    var d := Retrieve(fsd, u.store, u.record).value;
    DownloadUnfold(fsd, u.manifest, u.store, uuid, newPath, u.record, d);
    SplitRebuild(fs, src, m, d.fs, Destination(newPath, u.record));
  }

  /**
    Round trip with the intended `join`: the same holds for every
    destination, the original path included.
   */
  lemma UploadDownloadCorrectedRoundTrip(fs: Fs, man: Manifest, store: Store, chat: Path, src: Path, uuid: string,
                                         m: nat, fsd: Fs, newPath: Option<Path>)
    requires m > 0 && Upload(fs, man, store, chat, src, uuid, m).Ok?
    requires uuid !in Ids(man)
    requires src in fsd.files || |fs.files[src]| <= m
    ensures var u := Upload(fs, man, store, chat, src, uuid, m).value;
      var dest := Destination(newPath, u.record);
      var r := DownloadCorrected(fsd, u.manifest, u.store, uuid, newPath);
      && r.Ok?
      && dest in r.value.fs.files && r.value.fs.files[dest] == fs.files[src]
      && (forall p :: p in PartPaths(u.record.parts) && p != dest ==> p !in r.value.fs.files)
      && r.value.effects == FetchedEffects(chat, u.record.parts)
  {
    var u := Upload(fs, man, store, chat, src, uuid, m).value;
    FetchAfterUpload(fs, man, store, chat, src, uuid, m, fsd);
    RetrieveAfterUpload(fs, man, store, chat, src, uuid, m, fsd);
    var d := Retrieve(fsd, u.store, u.record).value;
    DownloadUnfold(fsd, u.manifest, u.store, uuid, newPath, u.record, d);
    SplitRebuildCorrected(fs, src, m, d.fs, Destination(newPath, u.record));
  }

  /**
    A file of at most `m` bytes downloaded to a new path moves rather than
    copies: its one part is the original path itself, and both joins remove
    their parts, so the original is gone and the new path holds its bytes.
   */
  lemma SmallFileNewPathRemovesOriginal(fs: Fs, man: Manifest, store: Store, chat: Path, src: Path, uuid: string,
                                        m: nat, dest: Path)
    requires m > 0 && src in fs.files && |fs.files[src]| <= m
    requires uuid !in Ids(man)
    requires dest != "" && dest != src
    ensures Upload(fs, man, store, chat, src, uuid, m).Ok?
    ensures var u := Upload(fs, man, store, chat, src, uuid, m).value;
      var r := Download(u.fs, u.manifest, u.store, uuid, Some(dest));
      r.Ok? && src !in r.value.fs.files && dest in r.value.fs.files && r.value.fs.files[dest] == fs.files[src]
    ensures var u := Upload(fs, man, store, chat, src, uuid, m).value;
      var r := DownloadCorrected(u.fs, u.manifest, u.store, uuid, Some(dest));
      r.Ok? && src !in r.value.fs.files && dest in r.value.fs.files && r.value.fs.files[dest] == fs.files[src]
  {
    SplitFastPath(fs, src, m);
    var u := Upload(fs, man, store, chat, src, uuid, m).value;
    UploadRecord(fs, man, store, chat, src, uuid, m);
    assert PartPaths(u.record.parts) == [src];
    UploadDownloadRoundTrip(fs, man, store, chat, src, uuid, m, u.fs, Some(dest));
    UploadDownloadCorrectedRoundTrip(fs, man, store, chat, src, uuid, m, u.fs, Some(dest));
  }

  /**
    The aliasing defect end to end, as in the program's own entry point:
    upload a file of at most `m` bytes, then download it with no new path.
    The one part is the file itself, so the program's `join` empties and
    removes it and the file is gone; the intended `join` leaves it intact.
   */
  lemma SmallFileDownloadDeletesOriginal(fs: Fs, man: Manifest, store: Store, chat: Path, src: Path, uuid: string, m: nat)
    requires m > 0 && src in fs.files && |fs.files[src]| <= m
    requires uuid !in Ids(man)
    ensures Upload(fs, man, store, chat, src, uuid, m).Ok?
    ensures var u := Upload(fs, man, store, chat, src, uuid, m).value;
      var r := Download(u.fs, u.manifest, u.store, uuid, None);
      r.Ok? && src !in r.value.fs.files
    ensures var u := Upload(fs, man, store, chat, src, uuid, m).value;
      var r := DownloadCorrected(u.fs, u.manifest, u.store, uuid, None);
      r.Ok? && src in r.value.fs.files && r.value.fs.files[src] == fs.files[src]
  {
    SplitFastPath(fs, src, m);
    var u := Upload(fs, man, store, chat, src, uuid, m).value;
    UploadRecord(fs, man, store, chat, src, uuid, m);
    RetrieveAfterUpload(fs, man, store, chat, src, uuid, m, u.fs);
    UploadDownloadCorrectedRoundTrip(fs, man, store, chat, src, uuid, m, u.fs, None);
    var d := Retrieve(u.fs, u.store, u.record).value;
    assert PartPaths(u.record.parts) == [src];
    JoinAsWrittenLosesAliasedPart(d.fs, src);
  }
}

=== FILE: part_codec.dfy ===
/**
  `FileSplitter` (app.py): splitting one file into parts of at most
  `MAX_SIZE` bytes in a scratch directory, and joining parts back into one
  file. The size limit is the parameter `m`; the program fixes it to
  `MaxSize`.
 */
module PartCodec {
  import opened Common
  import opened FileSystem
  import Decimal

  /** `FileSplitter.MAX_SIZE`: 5 MiB. */
  const MaxSize: nat := 5 * 1024 * 1024

  /** `FileSplitter.TEMP_DIR`, the scratch directory for part files. */
  const TempDir: Path := "temp"

  // ---------------------------------------------------------------------
  // Arithmetic of part counts

  /** The ceiling of `n / m`. */
  function CeilDiv(n: nat, m: nat): nat
    requires m > 0
  {
    (n + m - 1) / m
  }

  lemma DivByParts(q: int, r: int, m: int)
    requires m > 0 && 0 <= r < m
    ensures (q * m + r) / m == q
    ensures (q * m + r) % m == r
  {
    var x := q * m + r;
    var d := x / m - q;
    assert m * d == r - x % m;
    if d >= 1 {
      assert false;
    } else if d <= -1 {
      assert false;
    }
  }

  lemma CeilDivStep(n: nat, m: nat)
    requires m > 0 && n > m
    ensures CeilDiv(n, m) == 1 + CeilDiv(n - m, m)
  {
    var x := n - m + m - 1;
    DivByParts(x / m, x % m, m);
    DivByParts(x / m + 1, x % m, m);
    assert (x / m + 1) * m + x % m == x + m;
  }

  lemma CeilDivSmall(n: nat, m: nat)
    requires m > 0 && n <= m
    ensures CeilDiv(n, m) == if n == 0 then 0 else 1
  {
    if n == 0 {
      DivByParts(0, m - 1, m);
    } else {
      DivByParts(1, n - 1, m);
    }
  }

  /** The number of parts `split` returns for a file of `size` bytes. */
  function PartCount(size: nat, m: nat): nat
    requires m > 0
  {
    if size <= m then 1 else CeilDiv(size, m)
  }

  // ---------------------------------------------------------------------
  // Chunking: the read loop of `split`

  function Min(a: nat, b: nat): nat
  {
    if a <= b then a else b
  }

  /**
    The successive results of `file.read(m)` until it returns nothing: every
    chunk is non-empty and at most `m` long, only the last may be short, the
    chunks concatenate to `data`, and there are ceil(|data| / m) of them.
   */
  function Chunks(data: Bytes, m: nat): (cs: seq<Bytes>)
    requires m > 0
    ensures Flatten(cs) == data
    ensures forall i :: 0 <= i < |cs| ==> 0 < |cs[i]| <= m
    ensures forall i :: 0 <= i < |cs| - 1 ==> |cs[i]| == m
    ensures |cs| == CeilDiv(|data|, m)
    decreases |data|
  {
    if |data| == 0 then
      CeilDivSmall(0, m);
      []
    else
      var n := Min(m, |data|);
      var rest := Chunks(data[n..], m);
      assert data[..n] + data[n..] == data;
      if |data| <= m then
        CeilDivSmall(|data|, m);
        [data[..n]] + rest
      else
        CeilDivStep(|data|, m);
        [data[..n]] + rest
  }

  // ---------------------------------------------------------------------
  // Part file names

  function PartPrefix(base: Path): Path
  {
    TempDir + "/" + base + ".part"
  }

  /** The name of part `k` of a file whose basename is `base`. */
  function PartPath(base: Path, k: nat): (p: Path)
    ensures TempDir + "/" <= p
  {
    PartPrefix(base) + Decimal.NatToString(k)
  }

  /** The names of parts `k`, `k + 1`, ..., `k + n - 1`, in that order. */
  function PartPathsFrom(base: Path, k: nat, n: nat): (ps: seq<Path>)
  {
    seq(n, i requires 0 <= i < n => PartPath(base, k + i))
  }

  lemma PartPathsFromCons(base: Path, k: nat, n: nat)
    ensures PartPathsFrom(base, k, n + 1) == [PartPath(base, k)] + PartPathsFrom(base, k + 1, n)
  {
  }

  /** Distinct part numbers give distinct part names. */
  lemma PartPathInjective(base: Path, i: nat, j: nat)
    requires PartPath(base, i) == PartPath(base, j)
    ensures i == j
  {
    var pre := PartPrefix(base);
    var a, b := Decimal.NatToString(i), Decimal.NatToString(j);
    assert (pre + a)[|pre|..] == a;
    assert (pre + b)[|pre|..] == b;
    Decimal.NatToStringInjective(i, j);
  }

  lemma PartPathsFromDistinct(base: Path, k: nat, n: nat)
    ensures Distinct(PartPathsFrom(base, k, n))
  {
    var ps := PartPathsFrom(base, k, n);
    forall i, j | 0 <= i < j < n
      ensures ps[i] != ps[j]
    {
      if ps[i] == ps[j] {
        PartPathInjective(base, k + i, k + j);
      }
    }
  }

  /** The basename of a part name is `<base>.part<k>`. */
  lemma PartPathBasename(base: Path, k: nat)
    requires '/' !in base
    ensures Basename(PartPath(base, k)) == base + ".part" + Decimal.NatToString(k)
  {
    var name := base + ".part" + Decimal.NatToString(k);
    Decimal.NoSlash(k);
    assert PartPath(base, k) == "temp/" + name;
    BasenameAfterSlash("temp/", name);
  }

  /** Part `k` never names the file it was split from. */
  lemma PartPathNotSource(src: Path, k: nat)
    ensures PartPath(Basename(src), k) != src
  {
    PartPathBasename(Basename(src), k);
  }

  // ---------------------------------------------------------------------
  // split

  /** The files after writing `contents[i]` to `paths[i]`, in order. */
  function WriteAll(files: map<Path, Bytes>, paths: seq<Path>, contents: seq<Bytes>): map<Path, Bytes>
    requires |paths| == |contents|
    decreases |paths|
  {
    if |paths| == 0 then files
    else WriteAll(files[paths[0] := contents[0]], paths[1..], contents[1..])
  }

  lemma WriteAllCons(files: map<Path, Bytes>, p: Path, ps: seq<Path>, c: Bytes, cs: seq<Bytes>)
    requires |ps| == |cs|
    ensures WriteAll(files, [p] + ps, [c] + cs) == WriteAll(files[p := c], ps, cs)
  {
    assert ([p] + ps)[1..] == ps;
    assert ([c] + cs)[1..] == cs;
  }

  /**
    Writing to distinct paths adds exactly those paths, each holding what was
    written to it, and leaves every other file as it was.
   */
  lemma {:induction false} WriteAllSpec(files: map<Path, Bytes>, paths: seq<Path>, contents: seq<Bytes>)
    requires |paths| == |contents| && Distinct(paths)
    ensures var r := WriteAll(files, paths, contents);
      && r.Keys == files.Keys + (set p | p in paths)
      && (forall i :: 0 <= i < |paths| ==> paths[i] in r && r[paths[i]] == contents[i])
      && (forall p :: p in files && p !in paths ==> r[p] == files[p])
    decreases |paths|
  {
    if |paths| > 0 {
      var here := paths[0];
      var r := WriteAll(files, paths, contents);
      assert r == WriteAll(files[here := contents[0]], paths[1..], contents[1..]);
      WriteAllSpec(files[here := contents[0]], paths[1..], contents[1..]);
      assert here !in paths[1..];
      assert paths == [here] + paths[1..];
      forall i | 0 <= i < |paths|
        ensures paths[i] in r && r[paths[i]] == contents[i]
      {
        if i > 0 {
          assert paths[1..][i - 1] == paths[i];
          assert contents[1..][i - 1] == contents[i];
        }
      }
    }
  }

  /** Reading back paths written once each gives what was written. */
  lemma WriteAllRead(files: map<Path, Bytes>, paths: seq<Path>, contents: seq<Bytes>)
    requires |paths| == |contents| && Distinct(paths)
    ensures files.Keys <= WriteAll(files, paths, contents).Keys
    ensures forall p :: p in paths ==> p in WriteAll(files, paths, contents)
    ensures Read(WriteAll(files, paths, contents), paths) == contents
  {
    WriteAllSpec(files, paths, contents);
  }

  /** What `split` returns, together with the filesystem it leaves behind. */
  datatype Pieces = Pieces(fs: Fs, paths: seq<Path>)

  /**
    `FileSplitter(src).split()`: a file of at most `m` bytes is returned as
    itself; a larger one is read `m` bytes at a time into
    `temp/<basename>.part<k>`, k = 1, 2, ...
   */
  function Split(fs: Fs, src: Path, m: nat): (r: Result<Pieces>)
    requires m > 0
    ensures r.Err? <==> src !in fs.files || (|fs.files[src]| > m && TempDir in fs.files)
    ensures r.Ok? ==> forall p :: p in r.value.paths ==> p in r.value.fs.files
  {
    if src !in fs.files then Err(FileNotFound(src))
    else
      var data := fs.files[src];
      if |data| <= m then Ok(Pieces(fs, [src]))
      else if TempDir in fs.files then Err(FileExists(TempDir))
      else
        var base := Basename(src);
        var cs := Chunks(data, m);
        var names := PartPathsFrom(base, 1, |cs|);
        PartPathsFromDistinct(base, 1, |cs|);
        WriteAllSpec(fs.files, names, cs);
        Ok(Pieces(Fs(WriteAll(fs.files, names, cs), fs.dirs + {TempDir}), names))
  }

  /** The contents of `paths`, in order. */
  function Read(files: map<Path, Bytes>, paths: seq<Path>): seq<Bytes>
    requires forall p :: p in paths ==> p in files
  {
    seq(|paths|, i requires 0 <= i < |paths| => files[paths[i]])
  }

  // ---------------------------------------------------------------------
  // Properties of split

  /**
    The fast path: exactly the files of at most `m` bytes (the empty file
    included) come back as the one-element list holding their own path, with
    the filesystem untouched (no scratch directory, no part file).
   */
  lemma SplitFastPath(fs: Fs, src: Path, m: nat)
    requires m > 0 && src in fs.files
    requires |fs.files[src]| <= m || TempDir !in fs.files
    ensures Split(fs, src, m).Ok?
    ensures Split(fs, src, m).value.paths == [src] <==> |fs.files[src]| <= m
    ensures |fs.files[src]| <= m ==> Split(fs, src, m).value.fs == fs
  {
    var data := fs.files[src];
    if |data| > m {
      var pc := Split(fs, src, m).value;
      PartPathNotSource(src, 1);
      assert pc.paths[0] == PartPath(Basename(src), 1);
    }
  }

  /**
    Part sizes and count: a split file gives ceil(size / m) parts (one when
    it fits), every part of a real split is 1 to `m` bytes, and all but the
    last are exactly `m` bytes.
   */
  lemma SplitPartSizes(fs: Fs, src: Path, m: nat)
    requires m > 0 && Split(fs, src, m).Ok?
    ensures var pc := Split(fs, src, m).value;
      var sizes := seq(|pc.paths|, i requires 0 <= i < |pc.paths| => |pc.fs.files[pc.paths[i]]|);
      && |pc.paths| == PartCount(|fs.files[src]|, m)
      && (forall i :: 0 <= i < |sizes| ==> sizes[i] <= m)
      && (|fs.files[src]| > m ==> forall i :: 0 <= i < |sizes| ==> 0 < sizes[i])
      && (forall i :: 0 <= i < |sizes| - 1 ==> sizes[i] == m)
  {
    var data := fs.files[src];
    var pc := Split(fs, src, m).value;
    if |data| > m {
      var cs := Chunks(data, m);
      var names := PartPathsFrom(Basename(src), 1, |cs|);
      PartPathsFromDistinct(Basename(src), 1, |cs|);
      WriteAllRead(fs.files, names, cs);
      assert pc.paths == names && pc.fs.files == WriteAll(fs.files, names, cs);
      forall i | 0 <= i < |names|
        ensures |pc.fs.files[names[i]]| == |cs[i]|
      {
        assert Read(pc.fs.files, names)[i] == cs[i];
      }
    }
  }

  /** Concatenating the parts' contents in returned order gives back the file. */
  lemma SplitConcatenation(fs: Fs, src: Path, m: nat)
    requires m > 0 && Split(fs, src, m).Ok?
    ensures Flatten(Read(Split(fs, src, m).value.fs.files, Split(fs, src, m).value.paths)) == fs.files[src]
  {
    var data := fs.files[src];
    if |data| > m {
      var cs := Chunks(data, m);
      var names := PartPathsFrom(Basename(src), 1, |cs|);
      PartPathsFromDistinct(Basename(src), 1, |cs|);
      WriteAllRead(fs.files, names, cs);
    } else {
      assert Read(fs.files, [src]) == [data];
      FlattenOne(data);
    }
  }

  /**
    Part naming: a real split names its parts `temp/<basename>.part1` up to
    `.part<n>` in returned order; the parts of any split are pairwise distinct
    and a part differs from the source unless the file took the fast path.
   */
  lemma SplitNaming(fs: Fs, src: Path, m: nat)
    requires m > 0 && Split(fs, src, m).Ok?
    ensures var pc := Split(fs, src, m).value;
      && Distinct(pc.paths)
      && (|fs.files[src]| > m ==>
            && pc.paths == PartPathsFrom(Basename(src), 1, |pc.paths|)
            && src !in pc.paths)
  {
    var data := fs.files[src];
    if |data| > m {
      var n := |Chunks(data, m)|;
      assert Split(fs, src, m).value.paths == PartPathsFrom(Basename(src), 1, n);
      PartPathsFromDistinct(Basename(src), 1, n);
      PartPathsNotSource(src, 1, n);
    }
  }

  lemma PartPathsNotSource(src: Path, k: nat, n: nat)
    ensures src !in PartPathsFrom(Basename(src), k, n)
  {
    var ps := PartPathsFrom(Basename(src), k, n);
    forall i | 0 <= i < |ps|
      ensures ps[i] != src
    {
      PartPathNotSourceAt(src, k, n, i);
    }
    NotIn(ps, src);
  }

  lemma PartPathNotSourceAt(src: Path, k: nat, n: nat, i: nat)
    requires i < n
    ensures PartPathsFrom(Basename(src), k, n)[i] != src
  {
    PartPathNotSource(src, k + i);
  }

  /**
    Nothing else changes: files other than the parts keep their contents, no
    file disappears, and the only directory created is the scratch directory,
    on a real split.
   */
  lemma SplitFrame(fs: Fs, src: Path, m: nat)
    requires m > 0 && Split(fs, src, m).Ok?
    ensures var pc := Split(fs, src, m).value;
      && pc.fs.files.Keys == fs.files.Keys + (set p | p in pc.paths)
      && (forall p :: p in fs.files && p !in pc.paths ==> pc.fs.files[p] == fs.files[p])
      && pc.fs.dirs == if |fs.files[src]| > m then fs.dirs + {TempDir} else fs.dirs
  {
    var data := fs.files[src];
    if |data| > m {
      var cs := Chunks(data, m);
      var names := PartPathsFrom(Basename(src), 1, |cs|);
      PartPathsFromDistinct(Basename(src), 1, |cs|);
      WriteAllSpec(fs.files, names, cs);
    }
  }

  /** A 12 MiB file at the 5 MiB limit splits into parts of 5, 5 and 2 MiB. */
  lemma TwelveMebibyteFile(data: Bytes)
    requires |data| == 12 * 1024 * 1024
    ensures var cs := Chunks(data, MaxSize);
      |cs| == 3 && |cs[0]| == MaxSize && |cs[1]| == MaxSize && |cs[2]| == 2 * 1024 * 1024
  {
    var m := MaxSize;
    var cs := Chunks(data, m);
    assert cs == [data[..m]] + Chunks(data[m..], m);
    assert Chunks(data[m..], m) == [data[m..][..m]] + Chunks(data[m..][m..], m);
    var x := data[m..][m..];
    assert Chunks(x, m) == [x[..|x|]] + Chunks(x[|x|..], m);
    assert x[..|x|] == x;
  }

  // ---------------------------------------------------------------------
  // The part count printed by split

  /** The count `split` prints before splitting: `size // MAX_SIZE + 1`. */
  function LoggedPartCount(size: nat, m: nat): nat
    requires m > 0
  {
    size / m + 1
  }

  /**
    The printed count is right exactly when the size is zero or not a
    multiple of the limit; otherwise it is one too many.
   */
  lemma LoggedPartCountMismatch(size: nat, m: nat)
    requires m > 0
    ensures LoggedPartCount(size, m) == PartCount(size, m) <==> size == 0 || size % m != 0
    ensures LoggedPartCount(size, m) != PartCount(size, m) ==> LoggedPartCount(size, m) == PartCount(size, m) + 1
  {
    var q, r := size / m, size % m;
    DivByParts(q, r, m);
    assert size == q * m + r;
    if size == 0 {
    } else if size < m {
      DivByParts(0, size, m);
    } else if size == m {
      DivByParts(1, 0, m);
      DivByParts(1, m - 1, m);
    } else if r == 0 {
      DivByParts(q, m - 1, m);
      assert size + m - 1 == q * m + (m - 1);
    } else {
      DivByParts(q + 1, r - 1, m);
      assert size + m - 1 == (q + 1) * m + (r - 1);
    }
  }

  /** At the 5 MiB limit a 10 MiB file is announced as 3 parts but split into 2. */
  lemma LoggedPartCountTenMebibytes()
    ensures LoggedPartCount(10 * 1024 * 1024, MaxSize) == 3
    ensures PartCount(10 * 1024 * 1024, MaxSize) == 2
  {
  }

  // ---------------------------------------------------------------------
  // join

  /** The first of `paths`, in order, that is not a file. */
  function FirstMissing(files: map<Path, Bytes>, paths: seq<Path>): (r: Option<Path>)
    ensures r.None? <==> forall p :: p in paths ==> p in files
    ensures r.Some? ==> exists i :: 0 <= i < |paths| && paths[i] == r.value && r.value !in files
                          && forall j :: 0 <= j < i ==> paths[j] in files
    decreases |paths|
  {
    if |paths| == 0 then None
    else if paths[0] !in files then Some(paths[0])
    else
      var r := FirstMissing(files, paths[1..]);
      assert forall p :: p in paths ==> p == paths[0] || p in paths[1..];
      if r.Some? then
        var i :| 0 <= i < |paths| - 1 && paths[1..][i] == r.value && r.value !in files
                 && forall j :: 0 <= j < i ==> paths[1..][j] in files;
        assert paths[i + 1] == r.value;
        r
      else r
  }

  /**
    `join(dest, parts)` as the program writes it: `dest` is opened for
    writing, which empties it, before any part is read; then each part in
    turn is read whole, appended to `dest` and removed.
   */
  function JoinAsWritten(fs: Fs, dest: Path, parts: seq<Path>): (r: Result<Fs>)
    ensures r.Err? ==> r.error.FileNotFound? && r.error.path in parts
    ensures r.Ok? ==> forall p :: p in parts ==> p !in r.value.files
    ensures r.Ok? && dest !in parts ==> dest in r.value.files
    ensures r.Ok? ==> forall p :: p !in parts && p != dest ==>
                        (p in r.value.files <==> p in fs.files) && (p in fs.files ==> r.value.files[p] == fs.files[p])
    ensures r.Ok? ==> r.value.dirs == fs.dirs
  {
    CopyPartsFrame(fs.(files := fs.files[dest := []]), dest, parts, [], true);
    CopyParts(fs.(files := fs.files[dest := []]), dest, parts, [], true)
  }

  /**
    The loop of `join`. `written` is what has gone into the open destination
    so far; `linked` is whether `dest` still names that open file, which
    stops being so once `dest` itself is removed as a part. Writes go
    straight through to the file while it is linked.
   */
  function CopyParts(fs: Fs, dest: Path, parts: seq<Path>, written: Bytes, linked: bool): Result<Fs>
    decreases |parts|
  {
    if |parts| == 0 then Ok(fs)
    else
      var p := parts[0];
      if p !in fs.files then Err(FileNotFound(p))
      else
        var written' := written + fs.files[p];
        var files := if linked then fs.files[dest := written'] else fs.files;
        CopyParts(fs.(files := files - {p}), dest, parts[1..], written', linked && p != dest)
  }

  /**
    What the copy loop of `join` leaves, aliased or not: it fails only on a
    listed part that is missing when its turn comes; on success every part
    is gone, the destination survives unless it was itself a part or was
    unlinked before, and every other file and directory is unchanged.
   */
  lemma {:induction false} CopyPartsFrame(fs: Fs, dest: Path, parts: seq<Path>, written: Bytes, linked: bool)
    ensures var r := CopyParts(fs, dest, parts, written, linked);
      && (r.Err? ==> r.error.FileNotFound? && r.error.path in parts)
      && (r.Ok? ==> forall p :: p in parts ==> p !in r.value.files)
      && (r.Ok? && dest !in parts && dest in fs.files ==> dest in r.value.files)
      && (r.Ok? && !linked && dest !in fs.files ==> dest !in r.value.files)
      && (r.Ok? ==> forall p :: p !in parts && p != dest ==>
                      (p in r.value.files <==> p in fs.files) && (p in fs.files ==> r.value.files[p] == fs.files[p]))
      && (r.Ok? ==> r.value.dirs == fs.dirs)
    decreases |parts|
  {
    if |parts| > 0 && parts[0] in fs.files {
      var p := parts[0];
      var written' := written + fs.files[p];
      var files := if linked then fs.files[dest := written'] else fs.files;
      var fs1 := fs.(files := files - {p});
      assert CopyParts(fs, dest, parts, written, linked) == CopyParts(fs1, dest, parts[1..], written', linked && p != dest);
      CopyPartsFrame(fs1, dest, parts[1..], written', linked && p != dest);
      assert forall q :: q in parts <==> q == p || q in parts[1..];
    }
  }

  /**
    `join` as evidently intended: every part is read before anything is
    removed or written, so `dest` ends up holding the parts' contents in
    order even when it is itself one of the parts.
   */
  function Join(fs: Fs, dest: Path, parts: seq<Path>): (r: Result<Fs>)
    ensures r.Err? <==> exists p :: p in parts && p !in fs.files
    ensures r.Err? ==> r.error.FileNotFound? && r.error.path in parts && r.error.path !in fs.files
    ensures r.Ok? ==> dest in r.value.files && r.value.files[dest] == Flatten(Read(fs.files, parts))
    ensures r.Ok? ==> forall p :: p in parts && p != dest ==> p !in r.value.files
    ensures r.Ok? ==> forall p :: p !in parts && p != dest ==>
                        (p in r.value.files <==> p in fs.files) && (p in fs.files ==> r.value.files[p] == fs.files[p])
    ensures r.Ok? ==> r.value.dirs == fs.dirs
  {
    match FirstMissing(fs.files, parts)
    case Some(p) => Err(FileNotFound(p))
    case None => Ok(fs.(files := (fs.files - set p | p in parts)[dest := Flatten(Read(fs.files, parts))]))
  }

  lemma FirstMissingFrame(f1: map<Path, Bytes>, f2: map<Path, Bytes>, paths: seq<Path>)
    requires forall p :: p in paths ==> (p in f1 <==> p in f2)
    ensures FirstMissing(f1, paths) == FirstMissing(f2, paths)
    decreases |paths|
  {
    if |paths| > 0 {
      FirstMissingFrame(f1, f2, paths[1..]);
    }
  }

  /** Reading `p` then `rest` is `p`'s bytes followed by `rest` read from any map agreeing on `rest`. */
  lemma ReadCons(files: map<Path, Bytes>, files1: map<Path, Bytes>, p: Path, rest: seq<Path>)
    requires p in files
    requires forall q :: q in rest ==> q in files && q in files1 && files1[q] == files[q]
    ensures Flatten(Read(files, [p] + rest)) == files[p] + Flatten(Read(files1, rest))
  {
    assert Read(files, [p] + rest) == [files[p]] + Read(files1, rest);
  }

  /** Removing `p` first and `rest` later is removing both at once, around a write to `dest`. */
  lemma RemoveStep(files: map<Path, Bytes>, dest: Path, p: Path, rest: seq<Path>, a: Bytes, b: Bytes)
    requires p != dest
    ensures (files[dest := a] - {p} - (set q | q in rest))[dest := b]
         == (files - (set q | q in [p] + rest))[dest := b]
  {
    var lhs := (files[dest := a] - {p} - (set q | q in rest))[dest := b];
    var rhs := (files - (set q | q in [p] + rest))[dest := b];
    assert (set q | q in [p] + rest) == {p} + set q | q in rest;
    assert lhs.Keys == rhs.Keys;
  }

  lemma {:induction false} CopyPartsUnaliased(fs: Fs, dest: Path, parts: seq<Path>, written: Bytes)
    requires Distinct(parts) && dest !in parts
    requires dest in fs.files && fs.files[dest] == written
    ensures CopyParts(fs, dest, parts, written, true) ==
      match FirstMissing(fs.files, parts)
      case Some(p) => Err(FileNotFound(p))
      case None => Ok(fs.(files := (fs.files - set p | p in parts)[dest := written + Flatten(Read(fs.files, parts))]))
    decreases |parts|
  {
    if |parts| > 0 && parts[0] in fs.files {
      var p := parts[0];
      var rest := parts[1..];
      var written' := written + fs.files[p];
      var fs1 := fs.(files := fs.files[dest := written'] - {p});
      assert CopyParts(fs, dest, parts, written, true) == CopyParts(fs1, dest, rest, written', true);
      assert Distinct(rest) && p !in rest;
      CopyPartsUnaliased(fs1, dest, rest, written');
      FirstMissingFrame(fs1.files, fs.files, rest);
      if FirstMissing(fs.files, parts).None? {
        assert parts == [p] + rest;
        ReadCons(fs.files, fs1.files, p, rest);
        var joined := written' + Flatten(Read(fs1.files, rest));
        assert joined == written + Flatten(Read(fs.files, parts));
        RemoveStep(fs.files, dest, p, rest, written', joined);
        assert fs1.(files := (fs1.files - set q | q in rest)[dest := joined])
            == fs.(files := (fs.files - set q | q in parts)[dest := joined]);
      }
    } else if |parts| == 0 {
      EmptyJoin(fs, dest, parts, written);
    }
  }

  /** Copying no part leaves a destination that already holds `written` as it is. */
  lemma EmptyJoin(fs: Fs, dest: Path, parts: seq<Path>, written: Bytes)
    requires |parts| == 0
    requires dest in fs.files && fs.files[dest] == written
    ensures fs.(files := (fs.files - set q | q in parts)[dest := written + Flatten(Read(fs.files, parts))]) == fs
  {
    var after := (fs.files - set q | q in parts)[dest := written + Flatten(Read(fs.files, parts))];
    assert (set q | q in parts) == {};
    assert Read(fs.files, parts) == [];
    assert written + [] == written;
    assert after.Keys == fs.files.Keys;
  }

  /**
    When the destination is not one of the parts and no part is listed
    twice, the program's `join` does what the intended one does.
   */
  lemma JoinAsWrittenAgrees(fs: Fs, dest: Path, parts: seq<Path>)
    requires Distinct(parts) && dest !in parts
    ensures JoinAsWritten(fs, dest, parts) == Join(fs, dest, parts)
  {
    var fs0 := fs.(files := fs.files[dest := []]);
    CopyPartsUnaliased(fs0, dest, parts, []);
    FirstMissingFrame(fs0.files, fs.files, parts);
    if FirstMissing(fs.files, parts).None? {
      ReadFrame(fs0.files, fs.files, parts);
      var joined := Flatten(Read(fs.files, parts));
      assert [] + joined == joined;
      OverwriteThenRemove(fs.files, dest, parts, [], joined);
    }
  }

  /** Reading paths on which two maps agree gives the same contents. */
  lemma ReadFrame(f1: map<Path, Bytes>, f2: map<Path, Bytes>, paths: seq<Path>)
    requires forall p :: p in paths ==> p in f1 && p in f2 && f1[p] == f2[p]
    ensures Read(f1, paths) == Read(f2, paths)
  {
  }

  /** An earlier write to `dest` is invisible once `dest` is written again. */
  lemma OverwriteThenRemove(files: map<Path, Bytes>, dest: Path, parts: seq<Path>, a: Bytes, b: Bytes)
    requires dest !in parts
    ensures (files[dest := a] - set q | q in parts)[dest := b] == (files - set q | q in parts)[dest := b]
  {
    var lhs := (files[dest := a] - set q | q in parts)[dest := b];
    var rhs := (files - set q | q in parts)[dest := b];
    assert lhs.Keys == rhs.Keys;
  }

  /**
    The aliasing defect: joining a single part into its own path empties the
    file before reading it and then removes it, so the path is gone.
   */
  lemma JoinAsWrittenLosesAliasedPart(fs: Fs, p: Path)
    requires p in fs.files
    ensures JoinAsWritten(fs, p, [p]).Ok?
    ensures p !in JoinAsWritten(fs, p, [p]).value.files
  {
    var fs0 := fs.(files := fs.files[p := []]);
    var fs1 := fs0.(files := fs0.files[p := []] - {p});
    assert [p][1..] == [];
    assert [] + fs0.files[p] == [];
    assert JoinAsWritten(fs, p, [p]) == CopyParts(fs1, p, [], [], false);
  }

  /** The intended `join` of a single part into its own path changes nothing. */
  lemma JoinIntoOnlyPartKeepsIt(fs: Fs, p: Path)
    requires p in fs.files
    ensures Join(fs, p, [p]) == Ok(fs)
  {
    assert FirstMissing(fs.files, [p]).None?;
    var r := Join(fs, p, [p]).value;
    assert Read(fs.files, [p]) == [fs.files[p]];
    FlattenOne(fs.files[p]);
    assert Flatten(Read(fs.files, [p])) == fs.files[p];
    assert (set q | q in [p]) == {p};
    assert r.files == (fs.files - {p})[p := fs.files[p]];
    assert r.files.Keys == fs.files.Keys;
    assert forall k :: k in r.files ==> r.files[k] == fs.files[k];
    assert r == fs;
  }

  /**
    Split then join round trip: joining what `split` returned, in the order
    returned, rebuilds the file at any destination that is not one of the
    parts, and removes the parts.
   */
  lemma SplitJoinRoundTrip(fs: Fs, src: Path, m: nat, dest: Path)
    requires m > 0 && Split(fs, src, m).Ok?
    requires dest !in Split(fs, src, m).value.paths
    ensures var pc := Split(fs, src, m).value;
      var r := JoinAsWritten(pc.fs, dest, pc.paths);
      && r.Ok? && dest in r.value.files && r.value.files[dest] == fs.files[src]
      && forall p :: p in pc.paths ==> p !in r.value.files
  {
    var pc := Split(fs, src, m).value;
    SplitNaming(fs, src, m);
    SplitConcatenation(fs, src, m);
    JoinAsWrittenAgrees(pc.fs, dest, pc.paths);
  }

  /** With the intended `join`, the round trip holds for every destination. */
  lemma SplitJoinCorrectedRoundTrip(fs: Fs, src: Path, m: nat, dest: Path)
    requires m > 0 && Split(fs, src, m).Ok?
    ensures var pc := Split(fs, src, m).value;
      var r := Join(pc.fs, dest, pc.paths);
      r.Ok? && r.value.files[dest] == fs.files[src]
  {
    SplitConcatenation(fs, src, m);
  }

  /**
    What the read loop does from some turn on: with `rest` still unread and
    `k` the next part number, write each `m`-byte read to part `k`, `k + 1`,
    ... and append the names, until nothing is left.
   */
  function ReadLoop(files: map<Path, Bytes>, parts: seq<Path>, rest: Bytes, base: Path, k: nat, m: nat)
    : (map<Path, Bytes>, seq<Path>)
    requires m > 0
    decreases |rest|
  {
    if |rest| == 0 then (files, parts)
    else
      var n := Min(m, |rest|);
      ReadLoop(files[PartPath(base, k) := rest[..n]], parts + [PartPath(base, k)], rest[n..], base, k + 1, m)
  }

  /**
    The read loop writes exactly the chunks of what is left, in order, to
    consecutive part names, and appends those names.
   */
  lemma {:induction false} ReadLoopChunks(files: map<Path, Bytes>, parts: seq<Path>, rest: Bytes, base: Path, k: nat, m: nat)
    requires m > 0
    ensures var cs := Chunks(rest, m);
      var names := PartPathsFrom(base, k, |cs|);
      ReadLoop(files, parts, rest, base, k, m) == (WriteAll(files, names, cs), parts + names)
    decreases |rest|
  {
    var cs := Chunks(rest, m);
    if |rest| == 0 {
      assert parts + [] == parts;
    } else {
      var n := Min(m, |rest|);
      var p := PartPath(base, k);
      ReadLoopChunks(files[p := rest[..n]], parts + [p], rest[n..], base, k + 1, m);
      assert cs == [rest[..n]] + Chunks(rest[n..], m);
      PartPathsFromCons(base, k, |cs| - 1);
      var later := PartPathsFrom(base, k + 1, |cs| - 1);
      WriteAllCons(files, p, later, rest[..n], Chunks(rest[n..], m));
      assert (parts + [p]) + later == parts + ([p] + later);
    }
  }

  /**
    The read loop of `split` (the `while True` over `file.read(m)`): part
    `k` is written to `temp/<base>.part<k>` and its name appended to the
    result, until a read comes back empty.
   */
  method ReadParts(files0: map<Path, Bytes>, data: Bytes, base: Path, m: nat)
    returns (files: map<Path, Bytes>, parts: seq<Path>)
    requires m > 0
    ensures (files, parts) == ReadLoop(files0, [], data, base, 1, m)
  {
    files := files0;
    parts := [];
    var pos := 0;
    var partNum := 1;
    while true
      invariant pos <= |data|
      invariant ReadLoop(files, parts, data[pos..], base, partNum, m) == ReadLoop(files0, [], data, base, 1, m)
      decreases |data| - pos
    {
      var chunk := data[pos..pos + Min(m, |data| - pos)];
      if |chunk| == 0 {
        break;
      }
      assert data[pos..][..|chunk|] == chunk;
      assert data[pos..][|chunk|..] == data[pos + |chunk|..];
      var path := PartPath(base, partNum);
      files := files[path := chunk];
      parts := parts + [path];
      partNum := partNum + 1;
      pos := pos + |chunk|;
    }
    assert data[pos..] == [];
  }

  /**
    The whole read loop: the parts are named `temp/<base>.part1` onwards, one
    per chunk of the file, and part `k` holds chunk `k`.
   */
  method WriteParts(files0: map<Path, Bytes>, data: Bytes, base: Path, m: nat)
    returns (files: map<Path, Bytes>, parts: seq<Path>)
    requires m > 0
    ensures parts == PartPathsFrom(base, 1, |Chunks(data, m)|)
    ensures files == WriteAll(files0, parts, Chunks(data, m))
  {
    files, parts := ReadParts(files0, data, base, m);
    ReadLoopChunks(files0, [], data, base, 1, m);
    assert [] + PartPathsFrom(base, 1, |Chunks(data, m)|) == PartPathsFrom(base, 1, |Chunks(data, m)|);
  }

  /** `split` as the program writes it, with the read loop above. */
  method SplitFile(fs: Fs, src: Path, m: nat) returns (r: Result<Pieces>)
    requires m > 0
    ensures r == Split(fs, src, m)
  {
    if src !in fs.files {
      return Err(FileNotFound(src));
    }
    var data := fs.files[src];
    if |data| <= m {
      return Ok(Pieces(fs, [src]));
    }
    if TempDir in fs.files {
      return Err(FileExists(TempDir));
    }
    var files, parts := WriteParts(fs.files, data, Basename(src), m);
    return Ok(Pieces(Fs(files, fs.dirs + {TempDir}), parts));
  }
}

=== FILE: transport.dfy ===
/**
  The messaging transport behind `TelegramBot`, as a value: every message
  ever sent, in order. Message `k` (counting from 1) is the `k`-th one sent;
  a message can only be fetched from the chat it was sent to.
 */
module Transport {
  import opened Common

  datatype Message = Message(chat: Path, data: Bytes)

  datatype Store = Store(log: seq<Message>)

  /**
    `get_messages(chat, ids=id).download_media(...)`: the bytes of message
    `id` of `chat`, verbatim; a message that does not exist there fails.
   */
  function Fetch(s: Store, chat: Path, id: MsgId): (r: Result<Bytes>)
    ensures r.Err? ==> r.error == MessageNotFound(id)
  {
    if 1 <= id <= |s.log| && s.log[id - 1].chat == chat then Ok(s.log[id - 1].data)
    else Err(MessageNotFound(id))
  }

  /**
    `send_file(chat, file=...)`: the bytes become a new message of `chat`
    under a fresh id, which fetches them back.
   */
  function Send(s: Store, chat: Path, data: Bytes): (r: (Store, MsgId))
    ensures Fetch(s, chat, r.1).Err?
    ensures Fetch(r.0, chat, r.1) == Ok(data)
  {
    (Store(s.log + [Message(chat, data)]), |s.log| + 1)
  }

  /** Sending never disturbs an existing message: every earlier fetch gives the same result. */
  lemma SendKeepsFetches(s: Store, chat: Path, data: Bytes, c: Path, id: MsgId)
    requires Fetch(s, c, id).Ok?
    ensures Fetch(Send(s, chat, data).0, c, id) == Fetch(s, c, id)
  {
    assert Send(s, chat, data).0.log[id - 1] == s.log[id - 1];
  }
}
